=== FILE: README.md ===
# YouTube URL normalisation, modelled in Dafny

The quiz application turns the video link a user submits into one canonical form before it
fetches the audio. `app_quiz/api/utils.py` does this with three functions:

- `normalize_youtube_url(url)` strips the input. It then tries three strategies in order:
  1. a regular expression for short links (`youtu.be/<id>`);
  2. a regular expression for long links (`youtube.com/watch?...v=<id>`);
  3. a fallback through `urllib.parse.urlparse` and `parse_qs`.

  It checks the candidate ID against `^[a-zA-Z0-9_-]{11}$` and returns
  `https://www.youtube.com/watch?v=<id>`. Otherwise it raises one of three `ValueError`s.
- `extract_video_id(url)` returns the text after `v=` in the normalised URL.
- `validate_youtube_url(url)` reports whether normalisation returns instead of raising.

The model is pure: datatypes, functions and lemmas, as the source is. The modules are:

| file | module | what it holds |
|---|---|---|
| `wrappers.dfy` | `Wrappers` | `Option` and `Result` |
| `py_str.dfy` | `PyStr` | `str.isspace`, `strip`, `find`, `split` and the lemmas about them |
| `py_urlparse.dfy` | `PyUrlParse` | `urlsplit`, `unquote`, `parse_qsl` and `parse_qs`, following CPython 3.12 |
| `youtube_urls.dfy` | `YouTubeUrls` | the three functions of `utils.py` |
| `youtube_regex.dfy` | `YouTubeRegex` | proof that the index searches are what `re.search` reports for the two search patterns, and that the ID check is what `re.match` reports for the third |
| `youtube_properties.dfy` | `YouTubeUrlProperties` | the accepted link shapes, short-link priority, idempotence, whitespace, foreign hosts |
| `youtube_fallback.dfy` | `YouTubeFallback` | when the fallback decides, what `urlsplit` makes of a long link, why `v=short` is refused |
| `youtube_examples.dfy` | `YouTubeExamples` | the inputs of `app_quiz/tests/test_utils.py`, each settled by a general lemma; the `""` and `None` inputs are settled by `YouTubeUrls.Normalize`'s own contract |

Modelling choices:

- **Input and errors.** The argument is an `Option<string>`, where `None` stands for any value
  that is not a `str`. The three `ValueError`s are the constructors of `NormalizeError`. Each
  carries the text the message interpolates.
- **The regular expressions.** Each becomes an explicit index search.
  - Short links: the leftmost position where `youtu.be/` is followed by eleven ID characters.
  - Long links: the leftmost `youtube.com/watch?` that has, on the same line, a later `v=`
    followed by eleven ID characters. The capture is the last such `v=` on that line, as the
    greedy `.*` takes it.

  `YouTubeRegex` defines what a match of each pattern is: the optional scheme and host
  prefixes, the leftmost start, and the greedy `.*`. It then proves that the searches return
  the group `re.search` captures. The proof rests on one fact: no optional prefix contains
  `y`, the first letter of both markers.
- **The fallback.** `urlparse` is modelled by CPython 3.12's `urlsplit`:
  - it removes leading C0 controls and spaces;
  - it deletes tabs and line breaks;
  - it splits off the scheme at the first `:` when what precedes it starts with an ASCII
    letter and holds only scheme characters;
  - the network location runs from `//` to the first `/`, `?` or `#`;
  - a netloc with one square bracket but not the other raises `ValueError`;
  - the fragment is cut at `#`, then the query at `?`.

  `parse_qs` splits on `&`. It drops empty fields, fields without `=` and fields with an
  empty value. It turns `+` into a space and percent-decodes, then groups the values by name,
  in order.
- **Where the code's comments and its patterns differ, the model follows the patterns.**
  - The comment at app_quiz/api/utils.py:46 names the long format
    `youtube.com/watch?v=VIDEO_ID`, which suggests the `v` query parameter. The pattern at
    utils.py:48 has a greedy `.*` before `v=`. So it takes the last `v=` followed by eleven ID
    characters anywhere on the line after `youtube.com/watch?`, and accepts the first eleven
    characters of a longer run. That `v=` may sit inside another parameter's value.
    `YouTubeUrls.GreedyV` and `YouTubeRegex.LongSearchAgrees` state this.
  - The comment at utils.py:53 says the third step extracts the ID "from URL parameters". The
    model follows `urlparse` and `parse_qs` as the code calls them, with their splitting rules,
    except for the two netloc checks listed under "## Left out".

## Model

| member | source | states |
|---|---|---|
| YouTubeUrls.Normalize | app_quiz/api/utils.py:11-73 | `None` or `""` fails with "URL must be a non-empty string"; every success is 43 characters: `https://www.youtube.com/watch?v=` followed by eleven ID characters |
| YouTubeUrls.FirstShortFrom | app_quiz/api/utils.py:41-42 | the result is a position where `youtu.be/` and eleven ID characters start, with none earlier; `None` exactly when there is no such position |
| YouTubeUrls.ShortLinkId | app_quiz/api/utils.py:40-44 | an ID the short pattern yields is a well-formed video ID |
| YouTubeUrls.LineEnd | app_quiz/api/utils.py:48 | the reach of `.`: no line feed before the returned index, and a line feed at it unless it is the end |
| YouTubeUrls.LastVIn | app_quiz/api/utils.py:48 | the last `v=` and ID in the range, with none after it; `None` exactly when the range has none |
| YouTubeUrls.GreedyV | app_quiz/api/utils.py:48 | the greedy `.*v=`: the chosen `v=` and ID lie on the current line, and no later position on that line has one; `None` exactly when the line has none |
| YouTubeUrls.MatchesIdPattern | app_quiz/api/utils.py:70 | every video ID passes the check, and whatever passes starts with eleven ID characters |
| YouTubeRegex.IdPatternAgrees | app_quiz/api/utils.py:70 | the check holds exactly when `re.match(r'^[a-zA-Z0-9_-]{11}$')` matches: eleven class characters from index 0, then `$` at index 11, which is the end of the text or a final line feed |
| YouTubeUrls.IdPatternOnCandidates | app_quiz/api/utils.py:70 | on an eleven-character candidate, the pattern check is exactly `IsVideoId` |
| YouTubeUrls.Message | app_quiz/api/utils.py:31-71 | the text of each `ValueError`: the fixed message, or a message ending with the stripped input or with the rejected candidate |
| YouTubeUrls.MessageInjective | app_quiz/api/utils.py:31-71 | different errors have different messages, so the message identifies the error case and its argument |
| YouTubeUrls.FirstLongFrom | app_quiz/api/utils.py:48-49 | the leftmost `youtube.com/watch?` followed on its line by `v=` and an ID; `None` exactly when there is none |
| YouTubeUrls.LongLinkId | app_quiz/api/utils.py:46-51 | an ID the long pattern yields is a well-formed video ID |
| YouTubeUrls.QueryParamId | app_quiz/api/utils.py:53-64 | the fallback yields only values of exactly eleven characters |
| YouTubeUrls.QueryIdNeedsYouTubeHost | app_quiz/api/utils.py:55-62 | the fallback yields a value only when `urlparse` succeeds, its netloc contains `youtube.com` and the query has a `v` parameter, and the value is the first `v` value |
| YouTubeUrls.CandidateId | app_quiz/api/utils.py:38-64 | the strategy chain yields only candidates of exactly eleven characters |
| YouTubeUrls.ExtractVideoId | app_quiz/api/utils.py:76-90 | succeeds exactly when normalisation does; the result is a video ID whose canonical URL is the normalised URL; on failure, the same error |
| YouTubeUrls.ValidateYouTubeUrl | app_quiz/api/utils.py:93-107 | true exactly when normalisation returns the canonical URL of some video ID |
| YouTubeUrls.SplitCanonical | app_quiz/api/utils.py:89-90 | `split('v=')` of a canonical URL gives exactly two parts, the second being the ID, so `[1]` never fails |
| PyStr.Strip | app_quiz/api/utils.py:35 | empty exactly when the input is all whitespace; otherwise it starts and ends with non-whitespace |
| PyStr.TrimStart | app_quiz/api/utils.py:35 | a suffix of the input, what it drops is all whitespace, and it does not start with whitespace |
| PyStr.TrimEnd | app_quiz/api/utils.py:35 | a prefix of the input, what it drops is all whitespace, and it does not end with whitespace |
| PyStr.TrimStartSpaces | app_quiz/api/utils.py:35 | whitespace put in front does not change `lstrip` |
| PyStr.TrimEndSpaces | app_quiz/api/utils.py:35 | whitespace put behind does not change `rstrip` |
| PyStr.StripIgnoresSurroundingSpace | app_quiz/api/utils.py:35 | `strip` ignores whitespace added on either side |
| PyStr.StripKeepsHead | app_quiz/api/utils.py:35 | text that starts and ends with non-space characters survives `strip` unchanged, and only the tail after it is trimmed |
| PyStr.Find | app_quiz/api/utils.py:57 | `'youtube.com' in netloc`: found exactly when the text occurs, at its leftmost occurrence |
| PyStr.Split | app_quiz/api/utils.py:90 | joining the parts with the separator gives back the input; no part contains the separator; when there is a cut, the first one is at the separator's leftmost occurrence |
| PyStr.Partition | app_quiz/api/utils.py:58 | `None` exactly when the separator is absent; otherwise the cut is at the separator's leftmost occurrence, giving the text before it (which has none) and the text after it |
| PyStr.SplitAtFirstChar | app_quiz/api/utils.py:58 | splitting at a one-character separator gives the text before its first occurrence, then the split of the rest |
| PyStr.SplitWithoutChar | app_quiz/api/utils.py:58 | text without the separator splits into itself alone |
| PyStr.ContainsChar | app_quiz/api/utils.py:56 | a one-character text occurs exactly when that character is a member |
| PyStr.AsciiLower | app_quiz/api/utils.py:56 | same length; each upper-case ASCII letter becomes its lower-case letter and every other character is kept |
| PyUrlParse.TrimC0Start | app_quiz/api/utils.py:56 | a suffix of the URL; everything dropped is a C0 control or space, and the result does not start with one |
| PyUrlParse.DropUnsafe | app_quiz/api/utils.py:56 | no tab or line break is left, every character kept comes from the input, and clean text is unchanged |
| PyUrlParse.DropUnsafeAppend | app_quiz/api/utils.py:56 | the removal works piece by piece over a concatenation |
| PyUrlParse.SplitScheme | app_quiz/api/utils.py:56 | a scheme is split off exactly when the URL has a `:` at some `i > 0`, starts with an ASCII letter and holds only scheme characters before `i`; it is then the lower-cased `url[..i]` and the rest is `url[i+1..]`; otherwise the URL is kept whole |
| PyUrlParse.SplitNetloc | app_quiz/api/utils.py:56 | the netloc holds no `/`, `?` or `#`; the rest is empty or starts with one; `//`, netloc and rest rebuild the input |
| PyUrlParse.UrlSplit | app_quiz/api/utils.py:56 | on the cleaned URL: fails exactly when the netloc holds one kind of square bracket but not the other; on success the scheme and netloc are those split off, path, query and fragment are those of the text after the netloc, the netloc holds no delimiter and is a piece of the input once tabs and line breaks are removed, and the query holds no `#` |
| PyUrlParse.NetlocAfterScheme | app_quiz/api/utils.py:56 | after a leading `//`, the netloc is the text up to the first `/`, `?` or `#` and the rest starts there; without `//` the netloc is empty and the text is kept whole |
| PyUrlParse.PathQueryFragment | app_quiz/api/utils.py:56 | the path holds no `?` or `#` and the query no `#`; path, `?` and query when a `?` ends the path, and `#` and fragment when there is a `#`, rebuild the text; a missing part is empty |
| PyUrlParse.CutAt | app_quiz/api/utils.py:56 | the text before the first occurrence of the character, which has none, and the text after it; the whole text and nothing when it is absent |
| PyUrlParse.Unquote | app_quiz/api/utils.py:58 | never longer than its input, empty exactly when the input is, and the identity on text without `%` |
| PyUrlParse.UnquoteAsciiEscape | app_quiz/api/utils.py:58 | `%XX` with a code below `0x80`, in either case of hexadecimal digits, decodes to the character with that code |
| PyUrlParse.UnquoteKeeps | app_quiz/api/utils.py:58 | a character other than `%` is kept, whatever follows |
| PyUrlParse.UnquoteEscapeAll | app_quiz/api/utils.py:58 | `unquote` undoes the `%XX` escaping of every character of an ASCII text |
| PyUrlParse.DecodeComponent | app_quiz/api/utils.py:58 | how `parse_qs` decodes a name or value: empty exactly when the input is; without `%`, the input with every `+` turned into a space |
| PyUrlParse.EscapedPlusKept | app_quiz/api/utils.py:58 | a `+` written as `%2B` survives decoding as a `+` |
| PyUrlParse.PlusToSpace | app_quiz/api/utils.py:58 | same length; every `+` becomes a space and every other character is kept in place |
| PyUrlParse.FieldPairs | app_quiz/api/utils.py:58 | at most one pair per field, and no pair has an empty value |
| PyUrlParse.FieldPairOf | app_quiz/api/utils.py:58 | a field with `=` gives the decoded text before its first `=` and the decoded text after it, unless that value is empty |
| PyUrlParse.FieldWithoutEquals | app_quiz/api/utils.py:58 | a field without `=` gives no pair |
| PyUrlParse.FieldPairsAppend | app_quiz/api/utils.py:58 | the fields give their pairs in field order |
| PyUrlParse.ParseQsl | app_quiz/api/utils.py:58 | no pair has an empty value |
| PyUrlParse.ParseQslFirstField | app_quiz/api/utils.py:58 | the first field, up to the first `&`, gives its pairs ahead of the pairs of the rest of the query |
| PyUrlParse.ParseQslLastField | app_quiz/api/utils.py:58 | a query without `&` is one field |
| PyUrlParse.Group | app_quiz/api/utils.py:58-60 | a name is a key exactly when some pair has it, and maps to its values in order |
| PyUrlParse.ParseQs | app_quiz/api/utils.py:58-60 | every list of values is non-empty and holds no empty value, so `['v'][0]` exists whenever `'v'` is a key |
| PyUrlParse.FirstValueIsFirstPair | app_quiz/api/utils.py:60 | `parse_qs(q)['v'][0]` is the value of the first `v` pair |
| YouTubeRegex.ShortPrefixesHaveNoY | app_quiz/api/utils.py:41 | no text the optional scheme and `www.` prefix of the short pattern matches contains `y` |
| YouTubeRegex.LongPrefixesHaveNoY | app_quiz/api/utils.py:48 | no text the optional scheme and `www.` or `m.` prefix of the long pattern matches contains `y` |
| YouTubeRegex.MarkerNotInsidePrefix | app_quiz/api/utils.py:41-48 | no marker starts inside the optional prefix of a match |
| YouTubeRegex.ShortSearchAgrees | app_quiz/api/utils.py:41-44 | the group `re.search` captures with the short pattern is the ID the short-link search returns |
| YouTubeRegex.ShortSearchFails | app_quiz/api/utils.py:41-43 | the short-link search finds nothing exactly when the short pattern matches nowhere |
| YouTubeRegex.GreedyVIsLast | app_quiz/api/utils.py:48 | any `v=` and ID reachable from the marker without crossing a line feed is at or before the one the greedy search picks |
| YouTubeRegex.GreedyVReached | app_quiz/api/utils.py:48 | the `v=` the greedy search picks is reached without crossing a line feed |
| YouTubeRegex.LongSearchMarker | app_quiz/api/utils.py:48-49 | the leftmost long link starts at the marker of the match `re.search` reports |
| YouTubeRegex.LongSearchAgrees | app_quiz/api/utils.py:48-51 | the group `re.search` captures with the long pattern is the ID the long-link search returns |
| YouTubeRegex.LongSearchFails | app_quiz/api/utils.py:48-50 | the long-link search finds nothing exactly when the long pattern matches nowhere |
| YouTubeUrlProperties.PrefixHasNoY | app_quiz/api/utils.py:41-48 | no scheme and host prefix of either pattern contains `y` |
| YouTubeUrlProperties.ShortLinkCaptures | app_quiz/api/utils.py:40-44 | after a prefix without `y`, `youtu.be/` and an ID yield that ID, whatever follows |
| YouTubeUrlProperties.ShortLinkForm | app_quiz/tests/test_utils.py:15-27 | `youtu.be/<id>` after an optional `https://` or `http://` and an optional `www.`, followed by anything, normalises to the canonical URL of `<id>` |
| YouTubeUrlProperties.ShortLinkPriority | app_quiz/api/utils.py:40-44 | when the stripped input holds a short link, the leftmost one decides the result, whatever long link or `v` parameter follows |
| YouTubeUrlProperties.LeftmostShortCandidate | app_quiz/api/utils.py:38-44 | the leftmost short link's eleven characters are the candidate and a well-formed video ID |
| YouTubeUrlProperties.LayoutOf | app_quiz/api/utils.py:48 | a prefix without `y`, `youtube.com/watch?v=`, an ID and a tail lay out as the long pattern reads them |
| YouTubeUrlProperties.NoLaterV | app_quiz/api/utils.py:48 | with a tail that starts with `&` and holds no `v=`, no `v=` and ID follows the one after the marker |
| YouTubeUrlProperties.GreedyVAfterMarker | app_quiz/api/utils.py:48 | in that layout the greedy search stops at the `v=` right after the marker |
| YouTubeUrlProperties.LongLinkCaptures | app_quiz/api/utils.py:46-51 | in that layout the long pattern captures the ID |
| YouTubeUrlProperties.LongLinkHasNoShortLink | app_quiz/api/utils.py:40-44 | in that layout, with no `youtu.be/` in the tail, the short pattern matches nowhere |
| YouTubeUrlProperties.LongLayoutCandidate | app_quiz/api/utils.py:38-51 | in that layout the strategy chain yields the ID |
| YouTubeUrlProperties.NormalizeOfCandidate | app_quiz/api/utils.py:66-73 | an unfolding of `Normalize`'s last step: a candidate that is a video ID is returned as its canonical URL |
| YouTubeUrlProperties.StripLongLink | app_quiz/api/utils.py:35 | stripping a long link trims only its tail |
| YouTubeUrlProperties.TrimmedTailKeepsConditions | app_quiz/api/utils.py:35 | trimming the tail keeps it starting with `&` and free of `v=` and `youtu.be/` |
| YouTubeUrlProperties.LongLinkCandidate | app_quiz/api/utils.py:38-51 | a long link after a prefix without `y` yields its ID |
| YouTubeUrlProperties.LongLinkStrippedCandidate | app_quiz/api/utils.py:35-51 | the stripped long link still yields its ID |
| YouTubeUrlProperties.LongLinkAfter | app_quiz/api/utils.py:35-73 | a long link after a prefix without `y` or leading space normalises to its ID |
| YouTubeUrlProperties.LongLinkForm | app_quiz/tests/test_utils.py:29-48 | `youtube.com/watch?v=<id>` after an optional `https://` or `http://` and an optional `www.` or `m.`, followed by nothing or by `&` and parameters without `v=` and `youtu.be/`, normalises to the canonical URL of `<id>` |
| YouTubeUrlProperties.CanonicalIsFixedPoint | app_quiz/api/utils.py:73 | the canonical URL of a video ID normalises to itself |
| YouTubeUrlProperties.NormalizeIdempotent | app_quiz/tests/test_utils.py:8-13 | normalising a normalised URL returns it unchanged |
| YouTubeUrlProperties.NormalizeIgnoresSurroundingSpace | app_quiz/api/utils.py:31-35 | whitespace around a non-empty input changes nothing |
| YouTubeUrlProperties.StripIsPiece | app_quiz/api/utils.py:35 | the stripped text is a piece of the input |
| YouTubeUrlProperties.DropUnsafeKeepsPiece | app_quiz/api/utils.py:56 | removing tabs and line breaks keeps a piece a piece |
| YouTubeUrlProperties.NoShortLinkInForeign | app_quiz/api/utils.py:40-44 | without `youtu.be/` in the input the short pattern finds nothing |
| YouTubeUrlProperties.NoLongLinkInForeign | app_quiz/api/utils.py:46-51 | without `youtube.com` in the input the long pattern finds nothing |
| YouTubeUrlProperties.NoQueryIdInForeign | app_quiz/api/utils.py:53-64 | without `youtube.com` in the input, tabs and line breaks aside, the netloc never names YouTube and the fallback yields nothing |
| YouTubeUrlProperties.ForeignHostRejected | app_quiz/tests/test_utils.py:50-54 | an input holding neither `youtu.be/` nor `youtube.com` is refused |
| YouTubeFallback.NormalizeWithoutCandidate | app_quiz/api/utils.py:66-67 | an unfolding of `Normalize`: with no candidate, normalisation fails with "Could not extract video ID" and the stripped input |
| YouTubeFallback.NormalizeWithBadCandidate | app_quiz/api/utils.py:70-71 | an unfolding of `Normalize`: a candidate that is not a video ID fails with "Invalid YouTube video ID format" and that candidate |
| YouTubeFallback.FallbackDecides | app_quiz/api/utils.py:53-73 | an unfolding of `Normalize` through the fallback: when neither pattern matches, normalisation succeeds exactly when the fallback yields a video ID, and returns its canonical URL |
| YouTubeFallback.CleanText | app_quiz/api/utils.py:56 | text that starts with a printable character and has no tab or line break is left alone by the cleaning `urlsplit` does first |
| YouTubeFallback.SplitSchemeAt | app_quiz/api/utils.py:56 | a first `:` after a letter and scheme characters ends the scheme |
| YouTubeFallback.SchemeSplitOff | app_quiz/api/utils.py:56 | `https://` or `http://` is split off as the scheme, leaving `//` and the rest |
| YouTubeFallback.NetlocSplitOff | app_quiz/api/utils.py:56 | after `//` the netloc of a long link is the host up to the `/` of `/watch` |
| YouTubeFallback.QuerySplitOff | app_quiz/api/utils.py:56 | `/watch?<q>` with no `#` in `q` has path `/watch`, query `q` and no fragment |
| YouTubeFallback.UrlSplitOfLongLink | app_quiz/api/utils.py:56 | a long link with a scheme splits with netloc `<host>youtube.com` and the text after `?` as its query |
| YouTubeFallback.LongLinkQueryId | app_quiz/api/utils.py:53-62 | on a long link with a scheme and no `#`, the fallback yields the first `v` value of the query after `watch?` exactly when that value has eleven characters |
| YouTubeFallback.QueryIdOfParts | app_quiz/api/utils.py:56-62 | an unfolding of `QueryParamId` for a split URL: once the netloc contains `youtube.com`, the fallback yields the query's first `v` value exactly when that value has eleven characters |
| YouTubeFallback.UrlSplitWithoutScheme | app_quiz/api/utils.py:56 | a long link without a scheme splits with an empty netloc |
| YouTubeFallback.ParseQsOneField | app_quiz/api/utils.py:58-60 | `parse_qs("v=<x>")` maps `v` to `[x]` when `x` needs no decoding |
| YouTubeFallback.ShortQueryNoId | app_quiz/api/utils.py:58-62 | a query that is one `v` field shorter than eleven characters fails the fallback's length test |
| YouTubeFallback.EmptyNetlocNoId | app_quiz/api/utils.py:57 | an empty netloc makes the fallback give up |
| YouTubeFallback.IdCharsNeedNoDecoding | app_quiz/api/utils.py:58 | ID characters contain no `&`, `=`, `%` or `+` |
| YouTubeFallback.NoPatternInShortValue | app_quiz/api/utils.py:40-51 | fewer than eleven characters after `v=` leave room for neither pattern |
| YouTubeFallback.NoCandidateInShortValue | app_quiz/api/utils.py:38-64 | a long link whose `v` value is one to ten ID characters yields no candidate from any strategy |
| YouTubeFallback.RejectedAsWritten | app_quiz/api/utils.py:66-67 | input with nothing to strip and no candidate is refused with its own text in the message |
| YouTubeFallback.ShortValueRejected | app_quiz/tests/test_utils.py:83-87 | a long link, with any of the accepted scheme and host prefixes, whose `v` value is one to ten ID characters fails with "Could not extract video ID" and the input |
| YouTubeFallback.NoYRejected | app_quiz/tests/test_utils.py:78-81 | an input without the letter `y` is refused |
| YouTubeExamples.StandardExample | app_quiz/tests/test_utils.py:8-13 | the standard form normalises to itself |
| YouTubeExamples.ShortExample | app_quiz/tests/test_utils.py:15-20 | `https://youtu.be/TxHM390wrRk` normalises to the canonical URL |
| YouTubeExamples.ShortWithTokenExample | app_quiz/tests/test_utils.py:22-27 | the `?si=` share token is dropped |
| YouTubeExamples.SchemelessExample | app_quiz/tests/test_utils.py:29-34 | the link without `https://` normalises to the canonical URL |
| YouTubeExamples.MobileExample | app_quiz/tests/test_utils.py:36-41 | the `m.youtube.com` link normalises to the canonical URL |
| YouTubeExamples.ExtraParamsExample | app_quiz/tests/test_utils.py:43-48 | `&t=123s&list=PLxxx` is dropped |
| YouTubeExamples.ForeignExample | app_quiz/tests/test_utils.py:50-54 | the `www.example.com` link is refused |
| YouTubeExamples.ShortIdExample | app_quiz/tests/test_utils.py:83-87 | `v=short` is refused with "Could not extract video ID" |
| YouTubeExamples.ExtractExample | app_quiz/tests/test_utils.py:66-71 | the ID of the short link with a share token is `TxHM390wrRk` |
| YouTubeExamples.ValidateValidExample | app_quiz/tests/test_utils.py:73-76 | the short link is valid |
| YouTubeExamples.ValidateInvalidExample | app_quiz/tests/test_utils.py:78-81 | `https://www.example.com/video` is not valid |

## Left out

- `download_youtube_audio` (`app_quiz/api/utils.py:110-171`) is left out. It downloads with yt-dlp over the network, writes temporary files under uuid names and probes the file system.
- Non-`str` arguments are all represented by `None`. Python's truth test on arbitrary objects is not modelled.
- A Python `str` can hold a lone surrogate such as `'\ud800'`; a Dafny `char` is a Unicode scalar value and cannot. Inputs holding one are not modelled.
- `PyUrlParse.UrlSplit` is weaker than CPython in two ways:
  - It does not model `_check_bracketed_netloc`. CPython raises `ValueError` for a bracketed host that is not an IPv6 or IPvFuture literal. For such a netloc the model may accept where Python raises, and the fallback then swallows the error. So `YouTubeUrls.Normalize` can succeed where the program fails. For `https://[youtube.com]/watch?v=AAAAAAAAAAA`, `ipaddress` rejects `youtube.com` and the bare `except` turns the error into "no ID", so the program raises "Could not extract video ID". The model returns `https://www.youtube.com/watch?v=AAAAAAAAAAA`.
  - It does not model `_checknetloc`, the NFKC check on non-ASCII netlocs.

  Only the unbalanced-bracket error is modelled.
- `PyUrlParse.Unquote` decodes each `%XX` at or above `0x80` to one U+FFFD. Python decodes a valid or truncated UTF-8 sequence of such bytes to fewer characters: `%E2%82` gives one U+FFFD in Python and two in the model. This can change only which `ValueError` is raised and its message, never success or the ID: neither decoding turns such bytes into ID characters.
- `urlparse`'s `;` parameter split affects only the path, which the code never reads, so it is not modelled. Neither are `parse_qs`'s `max_num_fields` and `encoding` arguments, which the code leaves at their defaults.
- Beyond the behaviour of the CPython version named above, library behaviour is not modelled.
- The Django views, serializers, permissions, routing and models are left out. They shape HTTP requests and persist records.

=== FILE: py_str.dfy ===
/** The few operations on Python `str` that the URL normaliser relies on:
    `strip()`, the `in` operator, `find`, `split` and `lower()`. */
module PyStr {
  import opened Wrappers

  /** Python's `str.isspace()`: the characters that `str.strip()` with no argument removes. */
  predicate IsSpace(c: char) {
    ('\t' <= c <= '\r') || ('\U{1c}' <= c <= ' ') || c == '\U{85}' || c == '\U{a0}'
    || c == '\U{1680}' || ('\U{2000}' <= c <= '\U{200a}') || c == '\U{2028}' || c == '\U{2029}'
    || c == '\U{202f}' || c == '\U{205f}' || c == '\U{3000}'
  }

  predicate AllSpace(s: string) {
    forall i :: 0 <= i < |s| ==> IsSpace(s[i])
  }

  /** `s.lstrip()`: the longest suffix of `s` that does not start with whitespace. */
  function TrimStart(s: string): (r: string)
    ensures |r| <= |s| && r == s[|s| - |r|..]
    ensures AllSpace(s[..|s| - |r|])
    ensures r == [] || !IsSpace(r[0])
  {
    if s != [] && IsSpace(s[0]) then TrimStart(s[1..]) else s
  }

  /** `s.rstrip()`: the longest prefix of `s` that does not end with whitespace. */
  function TrimEnd(s: string): (r: string)
    ensures |r| <= |s| && r == s[..|r|]
    ensures AllSpace(s[|r|..])
    ensures r == [] || !IsSpace(r[|r| - 1])
  {
    if s != [] && IsSpace(s[|s| - 1]) then
      var r := TrimEnd(s[..|s| - 1]);
      assert s[..|s| - 1][..|r|] == s[..|r|];
      assert s[|r|..] == s[..|s| - 1][|r|..] + [s[|s| - 1]];
      r
    else
      s
  }

  /** `s.strip()`: empty exactly when `s` is all whitespace, otherwise starting and ending with
      non-whitespace. */
  function Strip(s: string): (r: string)
    ensures r == [] <==> AllSpace(s)
    ensures r != [] ==> !IsSpace(r[0]) && !IsSpace(r[|r| - 1])
  {
    TrimBothEnds(s);
    TrimEnd(TrimStart(s))
  }

  lemma TrimBothEnds(s: string)
    ensures TrimEnd(TrimStart(s)) == [] <==> AllSpace(s)
    ensures TrimEnd(TrimStart(s)) != [] ==>
      !IsSpace(TrimEnd(TrimStart(s))[0]) && !IsSpace(TrimEnd(TrimStart(s))[|TrimEnd(TrimStart(s))| - 1])
  {
    var t := TrimStart(s);
    if t == [] {
      assert s[..|s| - |t|] == s;
    } else {
      assert s[|s| - |t|] == t[0];
      assert TrimEnd(t)[0] == t[0];
    }
  }

  /** `w` occurs in `s` starting at index `k`. */
  predicate OccursAt(s: string, w: string, k: int) {
    0 <= k && k + |w| <= |s| && s[k..k + |w|] == w
  }

  /** Python's `w in s` for strings. */
  ghost predicate Contains(s: string, w: string) {
    exists k :: OccursAt(s, w, k)
  }

  /** `s.find(w, from)`: the leftmost occurrence of `w` at or after `from`. */
  function IndexFrom(s: string, w: string, from: nat): (r: Option<nat>)
    ensures r.Some? ==> from <= r.value && OccursAt(s, w, r.value)
    ensures r.Some? ==> forall k :: from <= k < r.value ==> !OccursAt(s, w, k)
    ensures r.None? ==> forall k :: from <= k ==> !OccursAt(s, w, k)
    decreases |s| - from
  {
    if from + |w| > |s| then None
    else if s[from..from + |w|] == w then Some(from)
    else IndexFrom(s, w, from + 1)
  }

  /** `w in s`, computed. */
  function Find(s: string, w: string): (r: Option<nat>)
    ensures r.Some? <==> Contains(s, w)
    ensures r.Some? ==> OccursAt(s, w, r.value) && forall k :: 0 <= k < r.value ==> !OccursAt(s, w, k)
  {
    IndexFrom(s, w, 0)
  }

  /** For a one-character text, `w in s` is membership of that character. */
  lemma ContainsChar(s: string, c: char)
    ensures Contains(s, [c]) <==> c in s
  {
    if c in s {
      var k :| 0 <= k < |s| && s[k] == c;
      assert s[k..k + 1] == [c];
      assert OccursAt(s, [c], k);
    }
    if Contains(s, [c]) {
      var k :| OccursAt(s, [c], k);
      assert s[k] == s[k..k + 1][0];
    }
  }

  /** `s.find(c)` for a character that does not occur in `s`. */
  lemma FindAbsentChar(s: string, c: char)
    requires c !in s
    ensures Find(s, [c]) == None
  {
    forall k | 0 <= k && k + 1 <= |s| ensures !OccursAt(s, [c], k) {
      assert s[k] in s;
      assert s[k..k + 1] == [s[k]];
    }
  }

  /** `s.find(c)` for a character whose first occurrence is at `i`. */
  lemma FindFirstChar(s: string, c: char, i: nat)
    requires i < |s| && s[i] == c && c !in s[..i]
    ensures Find(s, [c]) == Some(i)
  {
    assert s[i..i + 1] == [c];
    assert OccursAt(s, [c], i);
    forall k | 0 <= k < i ensures !OccursAt(s, [c], k) {
      assert s[k] == s[..i][k];
      assert s[k..k + 1] == [s[k]];
    }
  }

  /** The inverse of `Split`: Python's `sep.join(parts)`. */
  function Join(parts: seq<string>, sep: string): string {
    if parts == [] then []
    else if |parts| == 1 then parts[0]
    else parts[0] + sep + Join(parts[1..], sep)
  }

  /** `s.split(sep)` for a non-empty separator: cut at every leftmost, non-overlapping occurrence. */
  function Split(s: string, sep: string): (parts: seq<string>)
    requires sep != []
    ensures parts != []
    ensures Join(parts, sep) == s
    ensures forall i :: 0 <= i < |parts| ==> !Contains(parts[i], sep)
    ensures |parts| > 1 ==>
      OccursAt(s, sep, |parts[0]|) && forall k :: 0 <= k < |parts[0]| ==> !OccursAt(s, sep, k)
    decreases |s|
  {
    match Find(s, sep)
    case None => [s]
    case Some(k) =>
      PrefixBeforeFirstHasNone(s, sep, k);
      var tail := Split(s[k + |sep|..], sep);
      assert s == s[..k] + sep + s[k + |sep|..];
      [s[..k]] + tail
  }

  /** Splitting at a one-character separator cuts before its first occurrence and goes on with
      the rest. */
  lemma SplitAtFirstChar(a: string, c: char, b: string)
    requires c !in a
    ensures Split(a + [c] + b, [c]) == [a] + Split(b, [c])
  {
    var s := a + [c] + b;
    assert s[..|a|] == a && s[|a|] == c;
    FindFirstChar(s, c, |a|);
    assert s[|a| + 1..] == b;
  }

  /** Text without the separator is not split. */
  lemma SplitWithoutChar(s: string, c: char)
    requires c !in s
    ensures Split(s, [c]) == [s]
  {
    FindAbsentChar(s, c);
  }

  /** `s.split(sep, 1)` when `sep` occurs in `s`, otherwise `None`. */
  function Partition(s: string, sep: string): (r: Option<(string, string)>)
    requires sep != []
    ensures r.None? <==> !Contains(s, sep)
    ensures r.Some? ==> r.value.0 + sep + r.value.1 == s && !Contains(r.value.0, sep)
    ensures r.Some? ==> OccursAt(s, sep, |r.value.0|) && forall k :: 0 <= k < |r.value.0| ==> !OccursAt(s, sep, k)
  {
    match Find(s, sep)
    case None => None
    case Some(k) =>
      PrefixBeforeFirstHasNone(s, sep, k);
      assert s == s[..k] + sep + s[k + |sep|..];
      Some((s[..k], s[k + |sep|..]))
  }

  /** The text before the leftmost occurrence of `sep` does not contain `sep`. */
  lemma PrefixBeforeFirstHasNone(s: string, sep: string, k: nat)
    requires sep != [] && OccursAt(s, sep, k)
    requires forall j :: 0 <= j < k ==> !OccursAt(s, sep, j)
    ensures !Contains(s[..k], sep)
  {
    forall j | OccursAt(s[..k], sep, j) ensures false {
      assert s[..k][j..j + |sep|] == s[j..j + |sep|];
      assert OccursAt(s, sep, j);
    }
  }

  /** ASCII letters, which is all that `str.lower()` changes in a URL scheme. */
  predicate IsAsciiLetter(c: char) {
    'a' <= c <= 'z' || 'A' <= c <= 'Z'
  }

  predicate IsAsciiDigit(c: char) {
    '0' <= c <= '9'
  }

  /** `s.lower()` on text made of ASCII characters: each upper-case letter becomes its
      lower-case letter and every other character is kept. */
  function AsciiLower(s: string): (r: string)
    ensures |r| == |s|
    ensures forall i :: 0 <= i < |s| ==> !('A' <= r[i] <= 'Z')
    ensures forall i :: 0 <= i < |s| && 'A' <= s[i] <= 'Z' ==> 'a' <= r[i] <= 'z' && r[i] as int - s[i] as int == 32
    ensures forall i :: 0 <= i < |s| && !('A' <= s[i] <= 'Z') ==> r[i] == s[i]
  {
    if s == [] then []
    else [if 'A' <= s[0] <= 'Z' then (s[0] as int + 32) as char else s[0]] + AsciiLower(s[1..])
  }

  // ----- facts about occurrences inside concatenations -----

  /** An occurrence inside a piece of a string is an occurrence in the whole. */
  lemma OccursInSlice(s: string, w: string, a: nat, b: nat, k: int)
    requires a <= b <= |s| && OccursAt(s[a..b], w, k)
    ensures OccursAt(s, w, a + k)
  {
    var t := s[a..b];
    assert forall i :: k <= i < k + |w| ==> t[i] == s[a + i];
    assert t[k..k + |w|] == s[a + k..a + k + |w|];
  }

  /** Containment is transitive. */
  lemma ContainsTrans(s: string, t: string, w: string)
    requires Contains(s, t) && Contains(t, w)
    ensures Contains(s, w)
  {
    var i :| OccursAt(s, t, i);
    var j :| OccursAt(t, w, j);
    assert s[i..i + |t|] == t;
    OccursInSlice(s, w, i, i + |t|, j);
  }

  lemma ContainsSlice(s: string, a: nat, b: nat)
    requires a <= b <= |s|
    ensures Contains(s, s[a..b])
  {
    assert OccursAt(s, s[a..b], a);
  }

  /** A string with no occurrence of `w` keeps none in any prefix. */
  lemma NoneInPrefix(s: string, n: nat, w: string)
    requires n <= |s| && !Contains(s, w)
    ensures !Contains(s[..n], w)
  {
    if Contains(s[..n], w) {
      var k :| OccursAt(s[..n], w, k);
      OccursInSlice(s, w, 0, n, k);
    }
  }

  /** A string with no occurrence of `w` keeps none in any suffix. */
  lemma NoneInSuffix(s: string, n: nat, w: string)
    requires n <= |s| && !Contains(s, w)
    ensures !Contains(s[n..], w)
  {
    if Contains(s[n..], w) {
      var k :| OccursAt(s[n..], w, k);
      assert s[n..] == s[n..|s|];
      OccursInSlice(s, w, n, |s|, k);
    }
  }

  // ----- strip -----

  /** Whitespace in front of text does not change what `lstrip` returns once the text starts with a
      non-space character. */
  lemma {:induction false} TrimStartAppend(a: string, b: string)
    requires TrimStart(a) != []
    ensures TrimStart(a + b) == TrimStart(a) + b
  {
    assert (a + b)[0] == a[0];
    if IsSpace(a[0]) {
      calc {
        TrimStart(a + b);
      == { assert (a + b)[1..] == a[1..] + b; }
        TrimStart(a[1..] + b);
      == { TrimStartAppend(a[1..], b); }
        TrimStart(a[1..]) + b;
      }
    }
  }

  lemma {:induction false} TrimStartSpaces(w: string, s: string)
    requires AllSpace(w)
    ensures TrimStart(w + s) == TrimStart(s)
  {
    if w == [] {
      assert w + s == s;
    } else {
      assert (w + s)[0] == w[0];
      assert (w + s)[1..] == w[1..] + s;
      TrimStartSpaces(w[1..], s);
    }
  }

  lemma {:induction false} TrimEndSpaces(s: string, w: string)
    requires AllSpace(w)
    ensures TrimEnd(s + w) == TrimEnd(s)
  {
    if w == [] {
      assert s + w == s;
    } else {
      var n := |w| - 1;
      assert (s + w)[|s + w| - 1] == w[n];
      assert (s + w)[..|s + w| - 1] == s + w[..n];
      TrimEndSpaces(s, w[..n]);
    }
  }

  /** `rstrip` keeps a head that ends in a non-space character and trims only the tail. */
  lemma {:induction false} TrimEndKeepsHead(t: string, rest: string)
    requires t != [] && !IsSpace(t[|t| - 1])
    ensures TrimEnd(t + rest) == t + TrimEnd(rest)
  {
    if rest == [] {
      assert t + rest == t;
    } else if IsSpace(rest[|rest| - 1]) {
      var n := |rest| - 1;
      assert (t + rest)[|t + rest| - 1] == rest[n];
      assert (t + rest)[..|t + rest| - 1] == t + rest[..n];
      TrimEndKeepsHead(t, rest[..n]);
    } else {
      assert (t + rest)[|t + rest| - 1] == rest[|rest| - 1];
    }
  }

  /** Text made only of whitespace is removed entirely by `lstrip`. */
  lemma TrimStartAllSpace(s: string)
    requires AllSpace(s)
    ensures TrimStart(s) == []
  {
  }

  /** Whitespace appended to text does not change what `strip` returns. */
  lemma StripIgnoresTrailingSpace(s: string, w: string)
    requires AllSpace(w)
    ensures TrimEnd(TrimStart(s + w)) == TrimEnd(TrimStart(s))
  {
    if TrimStart(s) != [] {
      calc {
        TrimEnd(TrimStart(s + w));
      == { TrimStartAppend(s, w); }
        TrimEnd(TrimStart(s) + w);
      == { TrimEndSpaces(TrimStart(s), w); }
        TrimEnd(TrimStart(s));
      }
    } else {
      assert AllSpace(s + w) by {
        assert s == s[..|s| - |TrimStart(s)|];
      }
      TrimStartAllSpace(s + w);
    }
  }

  /** `strip` ignores whitespace added around its argument. */
  lemma StripIgnoresSurroundingSpace(w1: string, s: string, w2: string)
    requires AllSpace(w1) && AllSpace(w2)
    ensures Strip(w1 + s + w2) == Strip(s)
  {
    calc {
      Strip(w1 + s + w2);
    == { assert w1 + s + w2 == w1 + (s + w2); }
      TrimEnd(TrimStart(w1 + (s + w2)));
    == { TrimStartSpaces(w1, s + w2); }
      TrimEnd(TrimStart(s + w2));
    == { StripIgnoresTrailingSpace(s, w2); }
      Strip(s);
    }
  }

  /** `strip` of text that starts and ends its head with non-space characters keeps that head
      whole and cuts the tail to one of its prefixes. */
  lemma StripKeepsHead(t: string, rest: string)
    requires t != [] && !IsSpace(t[0]) && !IsSpace(t[|t| - 1])
    ensures Strip(t + rest) == t + TrimEnd(rest)
  {
    assert (t + rest)[0] == t[0];
    assert TrimStart(t + rest) == t + rest;
    TrimEndKeepsHead(t, rest);
  }
}

=== FILE: py_urlparse.dfy ===
/** The part of Python's `urllib.parse` that the normaliser's last strategy calls: `urlparse`
    (through `urlsplit`, as in CPython 3.12), `parse_qs` (through `parse_qsl`) and `unquote`. */
module PyUrlParse {
  import opened Wrappers
  import opened PyStr

  // ----- urlsplit -----

  /** `_WHATWG_C0_CONTROL_OR_SPACE`: U+0000 to U+0020, removed from the front of the URL. */
  predicate IsC0OrSpace(c: char) {
    c <= ' '
  }

  /** `url.lstrip(_WHATWG_C0_CONTROL_OR_SPACE)`. */
  function TrimC0Start(s: string): (r: string)
    ensures |r| <= |s| && r == s[|s| - |r|..]
    ensures forall i :: 0 <= i < |s| - |r| ==> IsC0OrSpace(s[i])
    ensures r == [] || !IsC0OrSpace(r[0])
  {
    if s != [] && IsC0OrSpace(s[0]) then TrimC0Start(s[1..]) else s
  }

  /** `_UNSAFE_URL_BYTES_TO_REMOVE`: tab, carriage return and line feed, removed everywhere. */
  predicate IsUnsafe(c: char) {
    c == '\t' || c == '\r' || c == '\n'
  }

  function DropUnsafe(s: string): (r: string)
    ensures |r| <= |s|
    ensures forall i :: 0 <= i < |r| ==> !IsUnsafe(r[i]) && r[i] in s
    ensures (forall i :: 0 <= i < |s| ==> !IsUnsafe(s[i])) ==> r == s
  {
    if s == [] then [] else (if IsUnsafe(s[0]) then [] else [s[0]]) + DropUnsafe(s[1..])
  }

  lemma {:induction false} DropUnsafeAppend(a: string, b: string)
    ensures DropUnsafe(a + b) == DropUnsafe(a) + DropUnsafe(b)
  {
    if a == [] {
      assert a + b == b;
    } else {
      assert (a + b)[0] == a[0];
      assert (a + b)[1..] == a[1..] + b;
      DropUnsafeAppend(a[1..], b);
    }
  }

  /** `scheme_chars`. */
  predicate IsSchemeChar(c: char) {
    IsAsciiLetter(c) || IsAsciiDigit(c) || c == '+' || c == '-' || c == '.'
  }

  /** `url[..i]` is a scheme ending at the ':' at `i`: it is non-empty, starts with an ASCII
      letter and holds only scheme characters. As ':' is not one, `i` is the first ':'. */
  predicate SchemeEndsAt(url: string, i: int) {
    0 < i < |url| && url[i] == ':' && IsAsciiLetter(url[0])
    && forall j :: 0 <= j < i ==> IsSchemeChar(url[j])
  }

  /** A scheme is split off at the first ':' when what precedes it is non-empty, starts with an
      ASCII letter and is made of scheme characters; it is lower-cased. */
  function SplitScheme(url: string): (r: (string, string))
    ensures |r.1| <= |url| && r.1 == url[|url| - |r.1|..]
    ensures r.0 == [] <==> r.1 == url
    ensures r.0 == [] ==> forall i :: !SchemeEndsAt(url, i)
    ensures r.0 != [] ==>
      SchemeEndsAt(url, |url| - |r.1| - 1) && r.0 == AsciiLower(url[..|url| - |r.1| - 1])
  {
    ColonsOccur(url);
    match Find(url, ":")
    case None => ("", url)
    case Some(i) =>
      assert url[i] == url[i..i + 1][0];
      if i > 0 && IsAsciiLetter(url[0]) && forall j :: 0 <= j < i ==> IsSchemeChar(url[j])
      then (AsciiLower(url[..i]), url[i + 1..])
      else ("", url)
  }

  /** Every ':' in the URL is an occurrence of ":". */
  lemma ColonsOccur(url: string)
    ensures forall k :: 0 <= k < |url| && url[k] == ':' ==> OccursAt(url, ":", k)
  {
    forall k | 0 <= k < |url| && url[k] == ':' ensures OccursAt(url, ":", k) {
      assert url[k..k + 1] == ":";
    }
  }

  /** The characters that end the network location. */
  predicate IsNetlocDelim(c: char) {
    c == '/' || c == '?' || c == '#'
  }

  /** The first delimiter at or after `from`, or the length of `s`. */
  function DelimFrom(s: string, from: nat): (d: nat)
    requires from <= |s|
    ensures from <= d <= |s|
    ensures forall i :: from <= i < d ==> !IsNetlocDelim(s[i])
    ensures d < |s| ==> IsNetlocDelim(s[d])
    decreases |s| - from
  {
    if from == |s| || IsNetlocDelim(s[from]) then from else DelimFrom(s, from + 1)
  }

  /** `_splitnetloc(url, 2)` on text that starts with "//". */
  function SplitNetloc(s: string): (r: (string, string))
    requires |s| >= 2
    ensures forall i :: 0 <= i < |r.0| ==> !IsNetlocDelim(r.0[i])
    ensures r.1 == [] || IsNetlocDelim(r.1[0])
    ensures s[..2] + r.0 + r.1 == s
  {
    var d := DelimFrom(s, 2);
    (s[2..d], s[d..])
  }

  datatype UrlParts = UrlParts(scheme: string, netloc: string, path: string, query: string, fragment: string)

  /** `urlsplit` raises `ValueError("Invalid IPv6 URL")` for a netloc with one square bracket but
      not the other. */
  datatype UrlError = InvalidIPv6Url

  /** A square bracket of one kind without the other. */
  predicate HasUnbalancedBracket(netloc: string) {
    ('[' in netloc) != (']' in netloc)
  }

  /** `urlsplit(url)`: the cleaned URL is cut into its scheme, its network location, and the path,
      query and fragment of what follows. It fails exactly on an unbalanced bracket in the
      network location. */
  function UrlSplit(url: string): (r: Result<UrlParts, UrlError>)
    ensures var (scheme, afterScheme) := SplitScheme(DropUnsafe(TrimC0Start(url)));
      var (netloc, rest) := NetlocAfterScheme(afterScheme);
      && (r.Failure? <==> HasUnbalancedBracket(netloc))
      && (r.Success? ==>
            && r.value.scheme == scheme && r.value.netloc == netloc
            && (r.value.path, r.value.query, r.value.fragment) == PathQueryFragment(rest))
    ensures r.Success? ==> forall i :: 0 <= i < |r.value.netloc| ==> !IsNetlocDelim(r.value.netloc[i])
    ensures r.Success? ==> !Contains(r.value.query, "#")
    ensures r.Success? ==> Contains(DropUnsafe(url), r.value.netloc)
  {
    var u := DropUnsafe(TrimC0Start(url));
    var (scheme, afterScheme) := SplitScheme(u);
    var (netloc, afterNetloc) := NetlocAfterScheme(afterScheme);
    if HasUnbalancedBracket(netloc) then Failure(InvalidIPv6Url)
    else
      var (path, query, fragment) := PathQueryFragment(afterNetloc);
      NetlocFromInput(url, u, afterScheme, netloc);
      Success(UrlParts(scheme, netloc, path, query, fragment))
  }

  predicate StartsWithSlashes(s: string) {
    |s| >= 2 && s[..2] == "//"
  }

  /** The network location is split off only when what follows the scheme starts with "//": it is
      the text after "//" up to the first '/', '?' or '#'. Otherwise it is empty and everything is
      kept. */
  function NetlocAfterScheme(afterScheme: string): (r: (string, string))
    ensures forall i :: 0 <= i < |r.0| ==> !IsNetlocDelim(r.0[i])
    ensures StartsWithSlashes(afterScheme) ==>
      afterScheme == "//" + r.0 + r.1 && (r.1 == [] || IsNetlocDelim(r.1[0]))
    ensures !StartsWithSlashes(afterScheme) ==> r.0 == [] && r.1 == afterScheme
    ensures Contains(afterScheme, r.0)
  {
    if StartsWithSlashes(afterScheme) then
      var r := SplitNetloc(afterScheme);
      assert r.0 == afterScheme[2..2 + |r.0|];
      ContainsSlice(afterScheme, 2, 2 + |r.0|);
      r
    else
      assert OccursAt(afterScheme, "", 0);
      ("", afterScheme)
  }

  /** The query is present when the path stops at a '?'. */
  predicate QueryFollows(rest: string, path: string) {
    |path| < |rest| && rest[|path|] == '?'
  }

  /** The fragment is cut at the first '#', then the query at the first '?' of what is left: the
      path runs to the first '?' or '#', the query from that '?' to the first '#', the fragment
      from there to the end, and together with the separators they rebuild the text. */
  function PathQueryFragment(rest: string): (r: (string, string, string))
    ensures '?' !in r.0 && '#' !in r.0 && '#' !in r.1
    ensures rest == r.0 + (if QueryFollows(rest, r.0) then "?" + r.1 else "")
                        + (if '#' in rest then "#" + r.2 else "")
    ensures !QueryFollows(rest, r.0) ==> r.1 == []
    ensures '#' !in rest ==> r.2 == []
    ensures !Contains(r.1, "#")
  {
    var (beforeFragment, fragment) := CutAt(rest, '#');
    var (path, query) := CutAt(beforeFragment, '?');
    PathAndQueryRebuild(rest, beforeFragment, fragment, path, query);
    ContainsChar(query, '#');
    (path, query, fragment)
  }

  /** `s.partition(c)`: the text before the first `c`, and the text after it when there is one. */
  function CutAt(s: string, c: char): (r: (string, string))
    ensures c !in r.0
    ensures s == r.0 + (if c in s then [c] + r.1 else [])
    ensures c !in s ==> r.1 == []
  {
    ContainsChar(s, c);
    match Partition(s, [c])
    case None => (s, [])
    case Some(p) =>
      ContainsChar(p.0, c);
      p
  }

  lemma PathAndQueryRebuild(rest: string, beforeFragment: string, fragment: string, path: string, query: string)
    requires '#' !in beforeFragment
    requires rest == beforeFragment + (if '#' in rest then "#" + fragment else [])
    requires '?' !in path
    requires beforeFragment == path + (if '?' in beforeFragment then "?" + query else [])
    requires '?' !in beforeFragment ==> query == []
    ensures '#' !in path && '#' !in query
    ensures QueryFollows(rest, path) <==> '?' in beforeFragment
    ensures rest == path + (if QueryFollows(rest, path) then "?" + query else "")
                         + (if '#' in rest then "#" + fragment else "")
  {
    assert forall c :: c in path ==> c in beforeFragment;
    assert forall c :: c in query ==> c in beforeFragment;
    if '?' in beforeFragment {
      assert rest[|path|] == beforeFragment[|path|] == '?';
    } else {
      assert beforeFragment == path;
      if |path| < |rest| {
        assert rest[|path|] == '#';
      }
    }
  }

  /** The netloc is a piece of the input once tabs and line breaks are taken out. */
  lemma NetlocFromInput(url: string, u: string, afterScheme: string, netloc: string)
    requires u == DropUnsafe(TrimC0Start(url))
    requires |afterScheme| <= |u| && afterScheme == u[|u| - |afterScheme|..]
    requires Contains(afterScheme, netloc)
    ensures Contains(DropUnsafe(url), netloc)
  {
    var clean := DropUnsafe(url);
    assert Contains(clean, u) by {
      CleanedTrimIsPiece(url);
    }
    assert Contains(u, afterScheme) by {
      ContainsSuffix(u, |u| - |afterScheme|);
    }
    ContainsTrans(clean, u, afterScheme);
    ContainsTrans(clean, afterScheme, netloc);
  }

  lemma ContainsSuffix(s: string, k: nat)
    requires k <= |s|
    ensures Contains(s, s[k..])
  {
    assert OccursAt(s, s[k..], k);
  }

  lemma CleanedTrimIsPiece(url: string)
    ensures Contains(DropUnsafe(url), DropUnsafe(TrimC0Start(url)))
  {
    var t := TrimC0Start(url);
    var front := url[..|url| - |t|];
    var d := DropUnsafe(front);
    assert DropUnsafe(url) == d + DropUnsafe(t) by {
      assert url == front + t;
      DropUnsafeAppend(front, t);
    }
    assert (d + DropUnsafe(t))[|d|..] == DropUnsafe(t);
    ContainsSuffix(DropUnsafe(url), |d|);
  }

  // ----- unquote -----

  predicate IsHexDigit(c: char) {
    IsAsciiDigit(c) || 'a' <= c <= 'f' || 'A' <= c <= 'F'
  }

  function HexValue(c: char): (v: nat)
    requires IsHexDigit(c)
    ensures v < 16
  {
    if IsAsciiDigit(c) then c as int - '0' as int
    else if 'a' <= c <= 'f' then c as int - 'a' as int + 10
    else c as int - 'A' as int + 10
  }

  /** The upper-case hexadecimal digit for `n`, as `quote` writes it. */
  function HexDigit(n: nat): (c: char)
    requires n < 16
    ensures IsHexDigit(c) && HexValue(c) == n
  {
    if n < 10 then ('0' as int + n) as char else ('A' as int + n - 10) as char
  }

  predicate IsAscii(s: string) {
    forall i :: 0 <= i < |s| ==> s[i] < '\U{80}'
  }

  /** `quote(s, safe='')` on text where every character is escaped: each ASCII character becomes
      "%XX" with its code in two hexadecimal digits. */
  function EscapeAll(s: string): (r: string)
    requires IsAscii(s)
    ensures |r| == 3 * |s|
  {
    if s == [] then []
    else ['%', HexDigit(s[0] as int / 16), HexDigit(s[0] as int % 16)] + EscapeAll(s[1..])
  }

  /** `unquote` undoes the escaping of ASCII text. */
  lemma {:induction false} UnquoteEscapeAll(s: string)
    requires IsAscii(s)
    ensures Unquote(EscapeAll(s)) == s
  {
    if s != [] {
      var e := EscapeAll(s);
      var c := s[0] as int;
      assert e[0] == '%' && e[1] == HexDigit(c / 16) && e[2] == HexDigit(c % 16);
      assert 16 * HexValue(e[1]) + HexValue(e[2]) == c;
      assert e[3..] == EscapeAll(s[1..]);
      UnquoteEscapeAll(s[1..]);
      assert s == [s[0]] + s[1..];
    }
  }

  /** "%XX" with a code below 0x80, in either case of hexadecimal digits, decodes to the character
      with that code, whatever follows. */
  lemma UnquoteAsciiEscape(h1: char, h2: char, t: string)
    requires IsHexDigit(h1) && IsHexDigit(h2) && 16 * HexValue(h1) + HexValue(h2) < 0x80
    ensures Unquote(['%', h1, h2] + t)
         == [(16 * HexValue(h1) + HexValue(h2)) as char] + Unquote(t)
  {
    assert (['%', h1, h2] + t)[3..] == t;
  }

  /** A character other than '%' is kept by `unquote`, whatever follows. */
  lemma UnquoteKeeps(c: char, t: string)
    requires c != '%'
    ensures Unquote([c] + t) == [c] + Unquote(t)
  {
    assert ([c] + t)[1..] == t;
  }

  /** `unquote(s)`: each "%XX" with two hexadecimal digits becomes the byte XX; a byte below 0x80
      is that ASCII character, and a byte from 0x80 up stands for one U+FFFD (see README). Every
      other character is kept. */
  function Unquote(s: string): (r: string)
    ensures |r| <= |s|
    ensures (r == []) == (s == [])
    ensures '%' !in s ==> r == s
    decreases |s|
  {
    if s == [] then []
    else if s[0] == '%' && |s| >= 3 && IsHexDigit(s[1]) && IsHexDigit(s[2]) then
      var b := 16 * HexValue(s[1]) + HexValue(s[2]);
      [if b < 0x80 then b as char else '\U{FFFD}'] + Unquote(s[3..])
    else
      [s[0]] + Unquote(s[1..])
  }

  /** `s.replace('+', ' ')`. */
  function PlusToSpace(s: string): (r: string)
    ensures |r| == |s| && '+' !in r
    ensures forall i :: 0 <= i < |s| && s[i] == '+' ==> r[i] == ' '
    ensures forall i :: 0 <= i < |s| && s[i] != '+' ==> r[i] == s[i]
  {
    if s == [] then [] else [if s[0] == '+' then ' ' else s[0]] + PlusToSpace(s[1..])
  }

  /** How `parse_qsl` decodes a name or a value: '+' becomes a space, then percent escapes are
      decoded, so a '+' written as "%2B" survives. */
  function DecodeComponent(s: string): (r: string)
    ensures (r == []) == (s == [])
    ensures '%' !in s && '+' !in s ==> r == s
    ensures '%' !in s ==> |r| == |s| && forall i :: 0 <= i < |s| ==> r[i] == (if s[i] == '+' then ' ' else s[i])
  {
    var p := PlusToSpace(s);
    assert forall c :: c in p ==> c == ' ' || c in s;
    Unquote(p)
  }

  /** "%2B" decodes to '+', which `parse_qsl` does not turn into a space. */
  lemma EscapedPlusKept(t: string)
    ensures DecodeComponent("%2B" + t) == "+" + DecodeComponent(t)
  {
    var p := PlusToSpace("%2B" + t);
    assert p[..3] == "%2B" && p[3..] == PlusToSpace(t) by {
      PlusToSpaceAppend("%2B", t);
    }
    assert p == ['%', '2', 'B'] + PlusToSpace(t);
    UnquoteAsciiEscape('2', 'B', PlusToSpace(t));
  }

  lemma {:induction false} PlusToSpaceAppend(a: string, b: string)
    ensures PlusToSpace(a + b) == PlusToSpace(a) + PlusToSpace(b)
  {
    if a == [] {
      assert a + b == b;
    } else {
      assert (a + b)[1..] == a[1..] + b;
      PlusToSpaceAppend(a[1..], b);
    }
  }

  // ----- parse_qsl and parse_qs -----

  /** The fields of a query, in order, turned into decoded (name, value) pairs: an empty field, a
      field without '=' and a field whose value is empty are dropped (`keep_blank_values` is false). */
  function FieldPairs(fields: seq<string>): (pairs: seq<(string, string)>)
    ensures |pairs| <= |fields|
    ensures forall i :: 0 <= i < |pairs| ==> pairs[i].1 != []
  {
    if fields == [] then []
    else
      var rest := FieldPairs(fields[1..]);
      if fields[0] == [] then rest
      else match Partition(fields[0], "=")
        case None => rest
        case Some(nv) => if nv.1 == [] then rest else [(DecodeComponent(nv.0), DecodeComponent(nv.1))] + rest
  }

  /** `parse_qsl(qs)` with separator '&'. */
  function ParseQsl(qs: string): (pairs: seq<(string, string)>)
    ensures forall i :: 0 <= i < |pairs| ==> pairs[i].1 != []
  {
    if qs == [] then [] else FieldPairs(Split(qs, "&"))
  }

  /** A field with '=' gives its decoded name and value, unless the value is empty. */
  lemma FieldPairOf(name: string, value: string)
    requires '=' !in name
    ensures FieldPairs([name + "=" + value])
         == if value == [] then [] else [(DecodeComponent(name), DecodeComponent(value))]
  {
    var f := name + "=" + value;
    assert f[..|name|] == name && f[|name|] == '=';
    FindFirstChar(f, '=', |name|);
    assert f[|name| + 1..] == value;
    assert [f][1..] == [];
  }

  /** A field without '=' gives nothing. */
  lemma FieldWithoutEquals(f: string)
    requires '=' !in f
    ensures FieldPairs([f]) == []
  {
    FindAbsentChar(f, '=');
    assert [f][1..] == [];
  }

  /** The fields give their pairs in order: the pairs of a sequence of fields are those of its
      first part followed by those of the rest. */
  lemma {:induction false} FieldPairsAppend(a: seq<string>, b: seq<string>)
    ensures FieldPairs(a + b) == FieldPairs(a) + FieldPairs(b)
  {
    if a == [] {
      assert a + b == b;
    } else {
      assert (a + b)[0] == a[0];
      assert (a + b)[1..] == a[1..] + b;
      FieldPairsAppend(a[1..], b);
    }
  }

  /** The first field of a query, up to the first '&', gives its pairs before the rest. */
  lemma ParseQslFirstField(field: string, rest: string)
    requires '&' !in field
    ensures ParseQsl(field + "&" + rest) == FieldPairs([field]) + ParseQsl(rest)
  {
    SplitAtFirstChar(field, '&', rest);
    FieldPairsAppend([field], Split(rest, "&"));
    if rest == [] {
      SplitWithoutChar(rest, '&');
      assert FieldPairs([rest]) == [];
    }
  }

  /** A query without '&' is one field. */
  lemma ParseQslLastField(field: string)
    requires '&' !in field
    ensures ParseQsl(field) == FieldPairs([field])
  {
    SplitWithoutChar(field, '&');
  }

  /** The values paired with `name`, in order. */
  function ValuesOf(pairs: seq<(string, string)>, name: string): seq<string> {
    if pairs == [] then []
    else (if pairs[0].0 == name then [pairs[0].1] else []) + ValuesOf(pairs[1..], name)
  }

  lemma {:induction false} ValuesOfSnoc(pairs: seq<(string, string)>, p: (string, string))
    ensures forall name :: ValuesOf(pairs + [p], name) == ValuesOf(pairs, name) + (if p.0 == name then [p.1] else [])
  {
    if pairs == [] {
      assert pairs + [p] == [p];
    } else {
      assert (pairs + [p])[1..] == pairs[1..] + [p];
      ValuesOfSnoc(pairs[1..], p);
    }
  }

  /** The dictionary `parse_qs` builds: each name maps to the list of its values, in order. */
  function Group(pairs: seq<(string, string)>): (m: map<string, seq<string>>)
    ensures forall name :: name in m <==> ValuesOf(pairs, name) != []
    ensures forall name :: name in m ==> m[name] == ValuesOf(pairs, name)
    decreases |pairs|
  {
    if pairs == [] then map[]
    else
      var init := pairs[..|pairs| - 1];
      var last := pairs[|pairs| - 1];
      var m := Group(init);
      assert pairs == init + [last];
      ValuesOfSnoc(init, last);
      m[last.0 := if last.0 in m then m[last.0] + [last.1] else [last.1]]
  }

  /** `parse_qs(qs)`. */
  function ParseQs(qs: string): (m: map<string, seq<string>>)
    ensures forall name :: name in m ==> m[name] != [] && forall i :: 0 <= i < |m[name]| ==> m[name][i] != []
  {
    var pairs := ParseQsl(qs);
    ValuesNonEmpty(pairs);
    Group(pairs)
  }

  lemma {:induction false} ValuesNonEmpty(pairs: seq<(string, string)>)
    requires forall i :: 0 <= i < |pairs| ==> pairs[i].1 != []
    ensures forall name, i :: 0 <= i < |ValuesOf(pairs, name)| ==> ValuesOf(pairs, name)[i] != []
  {
    if pairs != [] {
      ValuesNonEmpty(pairs[1..]);
    }
  }

  /** `parse_qs(qs)[name][0]` is the value of the first pair with that name. */
  lemma {:induction false} FirstValueIsFirstPair(pairs: seq<(string, string)>, name: string, k: nat)
    requires k < |pairs| && pairs[k].0 == name
    requires forall j :: 0 <= j < k ==> pairs[j].0 != name
    ensures name in Group(pairs) && Group(pairs)[name][0] == pairs[k].1
  {
    if k > 0 {
      FirstValueIsFirstPair(pairs[1..], name, k - 1);
    }
  }
}

=== FILE: wrappers.dfy ===
/** Option and Result values shared by the other modules. */
module Wrappers {

  datatype Option<+T> = None | Some(value: T)

  /** A Python call either returns a value or raises; `Failure` carries what was raised. */
  datatype Result<+T, +E> = Success(value: T) | Failure(error: E)
}

=== FILE: youtube_examples.dfy ===
/** The documented inputs of `normalize_youtube_url`, `extract_video_id` and
    `validate_youtube_url`, each settled by one of the general lemmas. */
module YouTubeExamples {
  import opened Wrappers
  import opened PyStr
  import opened YouTubeUrls
  import opened YouTubeUrlProperties
  import opened YouTubeFallback

  /** The sample ID is a well-formed video ID. */
  lemma SampleIdIsVideoId()
    ensures IsVideoId("TxHM390wrRk")
  {
    var s := "TxHM390wrRk";
    assert IsIdChar(s[0]) && IsIdChar(s[1]) && IsIdChar(s[2]) && IsIdChar(s[3]);
    assert IsIdChar(s[4]) && IsIdChar(s[5]) && IsIdChar(s[6]) && IsIdChar(s[7]);
    assert IsIdChar(s[8]) && IsIdChar(s[9]) && IsIdChar(s[10]);
  }

  lemma SampleCanonical()
    ensures Canonical("TxHM390wrRk") == "https://www.youtube.com/watch?v=TxHM390wrRk"
  {
    assert CanonicalPrefix == "https://www.youtube.com/watch?v=";
  }

  /** A text without the first character of `w` holds no occurrence of `w`. */
  lemma AbsentWithoutFirstChar(s: string, w: string)
    requires w != [] && w[0] !in s
    ensures !Contains(s, w)
  {
    forall k | 0 <= k && k + |w| <= |s| ensures !OccursAt(s, w, k) {
      assert s[k] in s;
      assert s[k..k + |w|][0] == s[k];
    }
  }

  // The test inputs, spelled as the general lemmas compose them.

  lemma ShortSpelling()
    ensures "https://" + "" + ShortMarker + "TxHM390wrRk" + "" == "https://youtu.be/TxHM390wrRk"
  {
  }

  lemma ShortWithTokenSpelling()
    ensures "https://" + "" + ShortMarker + "TxHM390wrRk" + "?si=MQFw2eEIvF4LeD3S"
         == "https://youtu.be/TxHM390wrRk?si=MQFw2eEIvF4LeD3S"
  {
    ShortSpelling();
  }

  lemma SchemelessSpelling()
    ensures "" + "www." + LongMarker + "v=" + "TxHM390wrRk" + "" == "www.youtube.com/watch?v=TxHM390wrRk"
  {
  }

  lemma MobileSpelling()
    ensures "https://" + "m." + LongMarker + "v=" + "TxHM390wrRk" + ""
         == "https://m.youtube.com/watch?v=TxHM390wrRk"
  {
  }

  lemma StandardSpelling()
    ensures "https://" + "www." + LongMarker + "v=" + "TxHM390wrRk"
         == "https://www.youtube.com/watch?v=TxHM390wrRk"
  {
  }

  lemma ExtraParamsSpelling()
    ensures "https://" + "www." + LongMarker + "v=" + "TxHM390wrRk" + "&t=123s&list=PLxxx"
         == "https://www.youtube.com/watch?v=TxHM390wrRk&t=123s&list=PLxxx"
  {
    StandardSpelling();
  }

  lemma ShortIdSpelling()
    ensures "https://" + "www." + LongMarker + "v=" + "short" == "https://www.youtube.com/watch?v=short"
  {
  }

  /** The standard form is returned as it is. */
  lemma StandardExample()
    ensures Normalize(Some("https://www.youtube.com/watch?v=TxHM390wrRk"))
         == Success("https://www.youtube.com/watch?v=TxHM390wrRk")
  {
    SampleIdIsVideoId();
    SampleCanonical();
    CanonicalIsFixedPoint("TxHM390wrRk");
  }

  /** "https://youtu.be/TxHM390wrRk". */
  lemma ShortExample()
    ensures Normalize(Some("https://youtu.be/TxHM390wrRk"))
         == Success("https://www.youtube.com/watch?v=TxHM390wrRk")
  {
    ShortSpelling();
    SampleIdIsVideoId();
    SampleCanonical();
    ShortLinkForm("https://", "", "TxHM390wrRk", "");
  }

  /** A share token after a short link is ignored. */
  lemma ShortWithTokenExample()
    ensures Normalize(Some("https://youtu.be/TxHM390wrRk?si=MQFw2eEIvF4LeD3S"))
         == Success("https://www.youtube.com/watch?v=TxHM390wrRk")
  {
    ShortWithTokenSpelling();
    SampleIdIsVideoId();
    SampleCanonical();
    ShortLinkForm("https://", "", "TxHM390wrRk", "?si=MQFw2eEIvF4LeD3S");
  }

  /** Without "https://". */
  lemma SchemelessExample()
    ensures Normalize(Some("www.youtube.com/watch?v=TxHM390wrRk"))
         == Success("https://www.youtube.com/watch?v=TxHM390wrRk")
  {
    SchemelessSpelling();
    SampleIdIsVideoId();
    SampleCanonical();
    assert !Contains([], "v=") && !Contains([], ShortMarker);
    LongLinkForm("", "www.", "TxHM390wrRk", "");
  }

  /** The mobile host "m.youtube.com". */
  lemma MobileExample()
    ensures Normalize(Some("https://m.youtube.com/watch?v=TxHM390wrRk"))
         == Success("https://www.youtube.com/watch?v=TxHM390wrRk")
  {
    MobileSpelling();
    SampleIdIsVideoId();
    SampleCanonical();
    assert !Contains([], "v=") && !Contains([], ShortMarker);
    LongLinkForm("https://", "m.", "TxHM390wrRk", "");
  }

  /** Further parameters after the ID are dropped. */
  lemma ExtraParamsExample()
    ensures Normalize(Some("https://www.youtube.com/watch?v=TxHM390wrRk&t=123s&list=PLxxx"))
         == Success("https://www.youtube.com/watch?v=TxHM390wrRk")
  {
    ExtraParamsSpelling();
    var rest := "&t=123s&list=PLxxx";
    SampleIdIsVideoId();
    SampleCanonical();
    AbsentWithoutFirstChar(rest, "v=");
    AbsentWithoutFirstChar(rest, ShortMarker);
    LongLinkForm("https://", "www.", "TxHM390wrRk", rest);
  }

  /** Another host with the same path and parameter is refused. */
  lemma ForeignExample()
    ensures Normalize(Some("https://www.example.com/watch?v=TxHM390wrRk")).Failure?
  {
    NoYRejected("https://www.example.com/watch?v=TxHM390wrRk");
  }

  /** A five-character "v" value is refused. */
  lemma ShortIdExample()
    ensures Normalize(Some("https://www.youtube.com/watch?v=short"))
         == Failure(NoVideoId("https://www.youtube.com/watch?v=short"))
  {
    ShortIdSpelling();
    var x := "short";
    assert IsIdChar(x[0]) && IsIdChar(x[1]) && IsIdChar(x[2]) && IsIdChar(x[3]) && IsIdChar(x[4]);
    ShortValueRejected("https://", "www.", "short");
  }

  /** The ID is the text after "v=" of the normalised URL. */
  lemma ExtractExample()
    ensures ExtractVideoId(Some("https://youtu.be/TxHM390wrRk?si=MQFw2eEIvF4LeD3S")) == Success("TxHM390wrRk")
  {
    ShortWithTokenExample();
    SampleIdIsVideoId();
    SampleCanonical();
  }

  lemma ValidateValidExample()
    ensures ValidateYouTubeUrl(Some("https://youtu.be/TxHM390wrRk"))
  {
    ShortExample();
  }

  lemma ValidateInvalidExample()
    ensures !ValidateYouTubeUrl(Some("https://www.example.com/video"))
  {
    NoYRejected("https://www.example.com/video");
  }
}

=== FILE: youtube_fallback.dfy ===
/** The third strategy of `normalize_youtube_url` (urlparse and parse_qs) worked out on the links
    the first two cannot read: when it decides the outcome, what `urlsplit` makes of a standard
    long link, and why "v=short" and hosts other than YouTube are refused. */
module YouTubeFallback {
  import opened Wrappers
  import opened PyStr
  import opened PyUrlParse
  import opened YouTubeUrls
  import opened YouTubeUrlProperties

  // ----- when the fallback decides -----

  /** Once no ID is found, normalisation raises "Could not extract video ID" with the stripped
      input. */
  lemma NormalizeWithoutCandidate(raw: string)
    requires raw != [] && CandidateId(Strip(raw)) == None
    ensures Normalize(Some(raw)) == Failure(NoVideoId(Strip(raw)))
  {
  }

  /** An eleven-character candidate that is not made of ID characters is refused. */
  lemma NormalizeWithBadCandidate(raw: string, id: string)
    requires raw != [] && CandidateId(Strip(raw)) == Some(id) && !IsVideoId(id)
    ensures Normalize(Some(raw)) == Failure(BadIdFormat(id))
  {
  }

  /** When neither pattern matches, the fallback decides: normalisation succeeds exactly when it
      yields a well-formed ID (see `LongLinkQueryId` for what it yields on a long link), and
      then returns that ID's canonical URL. */
  lemma FallbackDecides(raw: string)
    requires raw != []
    requires ShortLinkId(Strip(raw)) == None && LongLinkId(Strip(raw)) == None
    ensures Normalize(Some(raw)).Success? <==>
      QueryParamId(Strip(raw)).Some? && IsVideoId(QueryParamId(Strip(raw)).value)
    ensures Normalize(Some(raw)).Success? ==>
      Normalize(Some(raw)).value == Canonical(QueryParamId(Strip(raw)).value)
  {
    var url := Strip(raw);
    assert CandidateId(url) == QueryParamId(url);
    match QueryParamId(url)
    case None =>
      NormalizeWithoutCandidate(raw);
    case Some(id) =>
      if IsVideoId(id) {
        NormalizeOfCandidate(raw, id);
      } else {
        NormalizeWithBadCandidate(raw, id);
      }
  }

  // ----- urlsplit on a standard long link -----

  /** No tab, carriage return or line feed: nothing for `urlsplit` to remove. */
  predicate HasNoUnsafe(s: string) {
    '\t' !in s && '\r' !in s && '\n' !in s
  }

  /** Text that starts with a printable character and holds no tab or line break is left alone
      by the cleaning `urlsplit` does first. */
  lemma CleanText(s: string)
    requires s != [] && !IsC0OrSpace(s[0]) && HasNoUnsafe(s)
    ensures DropUnsafe(TrimC0Start(s)) == s
  {
    forall i | 0 <= i < |s| ensures !IsUnsafe(s[i]) {
      assert s[i] in s;
    }
  }

  /** A first ':' after a letter and scheme characters ends the scheme. */
  lemma SplitSchemeAt(s: string, i: nat)
    requires 0 < i < |s| && s[i] == ':' && ':' !in s[..i]
    requires IsAsciiLetter(s[0]) && forall j :: 0 <= j < i ==> IsSchemeChar(s[j])
    ensures SplitScheme(s).1 == s[i + 1..]
  {
    FindFirstChar(s, ':', i);
  }

  /** An explicit "https://" or "http://" is taken as the scheme, leaving "//" and the rest. */
  lemma SchemeSplitOff(scheme: string, rest: string)
    requires scheme == "https://" || scheme == "http://"
    ensures SplitScheme(scheme + rest).1 == "//" + rest
  {
    var s := scheme + rest;
    var i := |scheme| - 3;
    assert s[..i] == scheme[..i] && s[i] == ':';
    assert forall j :: 0 <= j < i ==> s[j] == scheme[j];
    SplitSchemeAt(s, i);
    assert s[i + 1..] == "//" + rest by {
      if scheme == "https://" {
        assert s[6..] == "//" + rest;
      } else {
        assert s[5..] == "//" + rest;
      }
    }
  }

  /** After "//", the netloc runs up to the '/' that starts the path. */
  lemma NetlocSplitOff(host: string, path: string)
    requires host in LongHosts && path != [] && path[0] == '/'
    ensures NetlocAfterScheme("//" + host + LongHost + path) == (host + LongHost, path)
  {
    var a := "//" + host + LongHost + path;
    var n := host + LongHost;
    assert a == "//" + n + path;
    assert a[..2] == "//";
    assert forall i :: 0 <= i < |n| ==> !IsNetlocDelim(n[i]);
    forall i | 2 <= i < 2 + |n| ensures a[i] == n[i - 2] { }
    assert a[2 + |n|] == '/';
    var d := DelimFrom(a, 2);
    assert d == 2 + |n|;
    assert a[2..d] == n && a[d..] == path;
  }

  /** The path "/watch" is cut from the query at '?', and there is no fragment. */
  lemma QuerySplitOff(q: string)
    requires '#' !in q
    ensures PathQueryFragment("/watch?" + q) == ("/watch", q, "")
  {
    var r := "/watch?" + q;
    FindAbsentChar(r, '#');
    assert r[..6] == "/watch" && r[6] == '?';
    FindFirstChar(r, '?', 6);
    assert r[7..] == q;
  }

  /** `urlsplit` of a long link with an explicit scheme: the netloc is the host and the query is
      everything after "watch?". */
  lemma UrlSplitOfLongLink(scheme: string, host: string, q: string)
    requires (scheme == "https://" || scheme == "http://") && host in LongHosts
    requires HasNoUnsafe(q) && '#' !in q
    ensures UrlSplit(scheme + host + LongMarker + q).Success?
    ensures UrlSplit(scheme + host + LongMarker + q).value.netloc == host + LongHost
    ensures UrlSplit(scheme + host + LongMarker + q).value.query == q
  {
    var s := scheme + host + LongMarker + q;
    var path := "/watch?" + q;
    var afterScheme := "//" + host + LongHost + path;
    LongLinkAfterScheme(scheme, host, q);
    assert NetlocAfterScheme(afterScheme) == (host + LongHost, path) by {
      NetlocSplitOff(host, path);
    }
    assert PathQueryFragment(path).1 == q by {
      QuerySplitOff(q);
    }
    NoBracketInHost(host);
    UrlSplitSteps(s, afterScheme, host + LongHost, path);
  }

  /** On a long link with an explicit scheme and no fragment, the fallback reads the query after
      "watch?" as it is written: it yields the first "v" value when that has eleven characters. */
  lemma LongLinkQueryId(scheme: string, host: string, q: string)
    requires (scheme == "https://" || scheme == "http://") && host in LongHosts
    requires HasNoUnsafe(q) && '#' !in q
    ensures QueryParamId(scheme + host + LongMarker + q)
         == if "v" in ParseQs(q) && |ParseQs(q)["v"][0]| == 11 then Some(ParseQs(q)["v"][0]) else None
  {
    UrlSplitOfLongLink(scheme, host, q);
    HostNamesYouTube(host);
    QueryIdOfParts(scheme + host + LongMarker + q, host + LongHost, q);
  }

  lemma HostNamesYouTube(host: string)
    ensures Contains(host + LongHost, LongHost)
  {
    var n := host + LongHost;
    assert n[|host|..] == LongHost;
    assert OccursAt(n, LongHost, |host|);
  }

  /** Once `urlsplit` gives a netloc naming YouTube, the fallback's answer depends on the query
      alone. */
  lemma QueryIdOfParts(s: string, netloc: string, q: string)
    requires UrlSplit(s).Success? && UrlSplit(s).value.netloc == netloc && UrlSplit(s).value.query == q
    requires Contains(netloc, LongHost)
    ensures QueryParamId(s)
         == if "v" in ParseQs(q) && |ParseQs(q)["v"][0]| == 11 then Some(ParseQs(q)["v"][0]) else None
  {
  }

  /** The cleaning step leaves a long link alone and the scheme step leaves "//", the host and
      the path. */
  lemma LongLinkAfterScheme(scheme: string, host: string, q: string)
    requires (scheme == "https://" || scheme == "http://") && host in LongHosts
    requires HasNoUnsafe(q)
    ensures SplitScheme(DropUnsafe(TrimC0Start(scheme + host + LongMarker + q))).1
         == "//" + host + LongHost + ("/watch?" + q)
  {
    assert HasNoUnsafe(scheme + host);
    LongLinkIsClean(scheme + host, q);
    Regroup(scheme, host, LongMarker, q);
    SchemeSplitOff(scheme, host + LongMarker + q);
    MarkerIsHostAndPath(host, q);
  }

  /** A long link with no tab or line break, starting with a scheme or a host, is left alone by
      the cleaning step. */
  lemma LongLinkIsClean(p: string, q: string)
    requires p == [] || !IsC0OrSpace(p[0])
    requires HasNoUnsafe(p) && HasNoUnsafe(q)
    ensures DropUnsafe(TrimC0Start(p + LongMarker + q)) == p + LongMarker + q
  {
    assert HasNoUnsafe(LongMarker) && LongMarker[0] == 'y';
    CleanJoin(p, LongMarker, q);
  }

  /** Three clean pieces, the first non-empty one starting with a printable character, make
      clean text. */
  lemma CleanJoin(p: string, m: string, q: string)
    requires m != [] && !IsC0OrSpace(m[0]) && (p == [] || !IsC0OrSpace(p[0]))
    requires HasNoUnsafe(p) && HasNoUnsafe(m) && HasNoUnsafe(q)
    ensures DropUnsafe(TrimC0Start(p + m + q)) == p + m + q
  {
    var s := p + m + q;
    assert s[0] == (if p != [] then p[0] else m[0]);
    assert forall c :: c in s ==> c in p || c in m || c in q;
    CleanText(s);
  }

  /** `urlsplit` assembled from its steps: scheme, netloc, then path, query and fragment. */
  lemma UrlSplitSteps(url: string, afterScheme: string, netloc: string, rest: string)
    requires SplitScheme(DropUnsafe(TrimC0Start(url))).1 == afterScheme
    requires NetlocAfterScheme(afterScheme) == (netloc, rest)
    requires '[' !in netloc && ']' !in netloc
    ensures UrlSplit(url).Success? && UrlSplit(url).value.netloc == netloc
    ensures UrlSplit(url).value.query == PathQueryFragment(rest).1
  {
  }

  lemma Regroup(a: string, b: string, c: string, d: string)
    ensures a + b + c + d == a + (b + c + d)
  {
  }

  /** "youtube.com/watch?" is the host "youtube.com" and the start of the path "/watch?". */
  lemma MarkerIsHostAndPath(host: string, q: string)
    ensures "//" + (host + LongMarker + q) == "//" + host + LongHost + ("/watch?" + q)
  {
    assert LongMarker == LongHost + "/watch?";
  }

  lemma NoBracketInHost(host: string)
    requires host in LongHosts
    ensures '[' !in host + LongHost && ']' !in host + LongHost
  {
  }

  /** Without a ':' there is no scheme: `urlsplit` keeps the whole cleaned text. */
  lemma SchemelessAfterScheme(host: string, q: string)
    requires host in LongHosts
    requires HasNoUnsafe(q) && ':' !in q
    ensures SplitScheme(DropUnsafe(TrimC0Start(host + LongMarker + q))).1 == host + LongMarker + q
  {
    assert HasNoUnsafe(host) && ':' !in host && ':' !in LongMarker;
    LongLinkIsClean(host, q);
    NoColonJoin(host, LongMarker, q);
  }

  /** Text without ':' has no scheme to split off. */
  lemma NoColonJoin(p: string, m: string, q: string)
    requires ':' !in p && ':' !in m && ':' !in q
    ensures SplitScheme(p + m + q).1 == p + m + q
  {
    var s := p + m + q;
    assert forall c :: c in s ==> c in p || c in m || c in q;
    FindAbsentChar(s, ':');
  }

  /** Without a scheme there is no "//", so the netloc is empty. */
  lemma UrlSplitWithoutScheme(host: string, q: string)
    requires host in LongHosts
    requires HasNoUnsafe(q) && ':' !in q
    ensures UrlSplit(host + LongMarker + q).Success?
    ensures UrlSplit(host + LongMarker + q).value.netloc == ""
  {
    var s := host + LongMarker + q;
    SchemelessAfterScheme(host, q);
    assert NetlocAfterScheme(s) == ("", s) by {
      assert s[0] == (if host != [] then host[0] else 'y');
      assert |s| >= 2 ==> s[..2][0] == s[0];
    }
    UrlSplitSteps(s, s, "", s);
  }

  // ----- parse_qs on "v=" and a value -----

  /** A query made of one "v=" field gives that value, undecoded when it needs no decoding. */
  lemma ParseQsOneField(x: string)
    requires x != []
    requires '&' !in x && '=' !in x && '%' !in x && '+' !in x
    ensures "v" in ParseQs("v=" + x) && ParseQs("v=" + x)["v"] == [x]
  {
    var qs := "v=" + x;
    assert Split(qs, "&") == [qs] by {
      FindAbsentChar(qs, '&');
    }
    assert Partition(qs, "=") == Some(("v", x)) by {
      assert qs[..1] == "v" && qs[1] == '=';
      FindFirstChar(qs, '=', 1);
      assert qs[2..] == x;
    }
    assert DecodeComponent("v") == "v" && DecodeComponent(x) == x;
    assert FieldPairs([qs]) == [("v", x)];
    assert ValuesOf([("v", x)], "v") == [x];
  }

  // ----- what the fallback refuses -----

  /** Where a long link can start. */
  lemma LongAtShape(s: string, q: int)
    ensures LongAt(s, q) ==> 0 <= q && q + 18 <= |s| && s[q] == 'y'
  {
    if LongAt(s, q) {
      OccursAtChar(s, LongMarker, q, 0);
    }
  }

  /** Fewer than eleven characters after "v=" leave room for neither pattern. */
  lemma NoPatternInShortValue(p: string, x: string)
    requires forall i :: 0 <= i < |p| ==> p[i] != 'y'
    requires |x| < 11
    ensures ShortLinkId(p + LongMarker + "v=" + x) == None
    ensures LongLinkId(p + LongMarker + "v=" + x) == None
  {
    var s := p + LongMarker + "v=" + x;
    var L := |p|;
    forall k ensures !ShortAt(s, k) {
      ShortAtShape(s, k);
      if 0 <= k < L {
        assert s[k] == p[k];
      } else if L <= k < L + 11 {
        assert s[k] == LongMarker[k - L] && s[k + 5] == LongMarker[k + 5 - L];
      }
    }
    assert FirstShortFrom(s, 0) == None;
    forall q ensures !LongAt(s, q) {
      LongAtShape(s, q);
      if 0 <= q < L {
        assert s[q] == p[q];
      }
    }
    assert FirstLongFrom(s, 0) == None;
  }

  /** Once `urlsplit` succeeds with a query that is one short "v" field, the fallback's length
      test fails. */
  lemma ShortQueryNoId(s: string, x: string)
    requires UrlSplit(s).Success? && UrlSplit(s).value.query == "v=" + x
    requires 0 < |x| < 11 && '&' !in x && '=' !in x && '%' !in x && '+' !in x
    ensures QueryParamId(s) == None
  {
    ParseQsOneField(x);
  }

  /** Once `urlsplit` succeeds with an empty netloc, the fallback gives up at once. */
  lemma EmptyNetlocNoId(s: string)
    requires UrlSplit(s).Success? && UrlSplit(s).value.netloc == ""
    ensures QueryParamId(s) == None
  {
    FindAbsentChar("", LongHost[0]);
  }

  /** ID characters include none of the characters that `parse_qs` treats specially. */
  lemma IdCharsNeedNoDecoding(x: string)
    requires forall i :: 0 <= i < |x| ==> IsIdChar(x[i])
    ensures '&' !in x && '=' !in x && '%' !in x && '+' !in x
  {
    forall c | c in x ensures IsIdChar(c) {
      var i :| 0 <= i < |x| && x[i] == c;
    }
  }

  /** With a scheme, the fallback reads the "v" value, which is too short. */
  lemma ShortValueNoQueryId(scheme: string, host: string, x: string)
    requires (scheme == "https://" || scheme == "http://") && host in LongHosts
    requires 0 < |x| < 11 && forall i :: 0 <= i < |x| ==> IsIdChar(x[i])
    ensures QueryParamId(scheme + host + LongMarker + ("v=" + x)) == None
  {
    var q := "v=" + x;
    assert HasNoUnsafe(q) && '#' !in q;
    UrlSplitOfLongLink(scheme, host, q);
    IdCharsNeedNoDecoding(x);
    ShortQueryNoId(scheme + host + LongMarker + q, x);
  }

  /** Without a scheme, the netloc is empty. */
  lemma SchemelessNoQueryId(host: string, q: string)
    requires host in LongHosts
    requires HasNoUnsafe(q) && ':' !in q
    ensures QueryParamId(host + LongMarker + q) == None
  {
    UrlSplitWithoutScheme(host, q);
    EmptyNetlocNoId(host + LongMarker + q);
  }

  lemma Regroup3(a: string, b: string, c: string)
    ensures a + b + c == a + (b + c)
  {
  }

  /** No strategy finds an ID in a long link whose "v" value is one to ten ID characters. */
  lemma NoCandidateInShortValue(scheme: string, host: string, x: string)
    requires scheme in Schemes && host in LongHosts
    requires 0 < |x| < 11 && forall i :: 0 <= i < |x| ==> IsIdChar(x[i])
    ensures CandidateId(scheme + host + LongMarker + "v=" + x) == None
  {
    var p := scheme + host;
    PrefixHasNoY(scheme, host);
    NoPatternInShortValue(p, x);
    Regroup3(p + LongMarker, "v=", x);
    if scheme == "" {
      var q := "v=" + x;
      assert HasNoUnsafe(q) && ':' !in q;
      assert p == host;
      SchemelessNoQueryId(host, q);
    } else {
      ShortValueNoQueryId(scheme, host, x);
    }
  }

  /** A long link with a "v" value starts with the scheme, host or 'y' and ends with an ID
      character, so `strip()` leaves it alone. */
  lemma ShortValueEnds(scheme: string, host: string, x: string)
    requires scheme in Schemes && host in LongHosts
    requires 0 < |x| < 11 && forall i :: 0 <= i < |x| ==> IsIdChar(x[i])
    ensures var raw := scheme + host + LongMarker + "v=" + x;
      raw != [] && !IsSpace(raw[0]) && !IsSpace(raw[|raw| - 1])
  {
    var p := scheme + host;
    var raw := p + LongMarker + "v=" + x;
    PrefixStartsWithNoSpace(scheme, host);
    assert raw[0] == (if p != [] then p[0] else 'y');
    assert raw[|raw| - 1] == x[|x| - 1];
  }

  /** Input with nothing to strip and no candidate is reported as written. */
  lemma RejectedAsWritten(raw: string)
    requires raw != [] && !IsSpace(raw[0]) && !IsSpace(raw[|raw| - 1]) && CandidateId(raw) == None
    ensures Normalize(Some(raw)) == Failure(NoVideoId(raw))
  {
    StripKeepsHead(raw, []);
    assert raw + [] == raw;
    NormalizeWithoutCandidate(raw);
  }

  /** A long link whose "v" value is a run of one to ten ID characters ("v=short") is refused:
      neither pattern finds eleven ID characters, and the fallback's length test fails. */
  lemma ShortValueRejected(scheme: string, host: string, x: string)
    requires scheme in Schemes && host in LongHosts
    requires 0 < |x| < 11 && forall i :: 0 <= i < |x| ==> IsIdChar(x[i])
    ensures Normalize(Some(scheme + host + LongMarker + "v=" + x))
         == Failure(NoVideoId(scheme + host + LongMarker + "v=" + x))
  {
    ShortValueEnds(scheme, host, x);
    NoCandidateInShortValue(scheme, host, x);
    RejectedAsWritten(scheme + host + LongMarker + "v=" + x);
  }

  /** Both markers and the host "youtube.com" start with 'y', so an input without that letter
      ("https://www.example.com/...") is refused. */
  lemma NoYRejected(raw: string)
    requires 'y' !in raw
    ensures Normalize(Some(raw)).Failure?
  {
    forall k ensures !OccursAt(raw, ShortMarker, k) {
      if OccursAt(raw, ShortMarker, k) {
        OccursAtChar(raw, ShortMarker, k, 0);
      }
    }
    var d := DropUnsafe(raw);
    forall k ensures !OccursAt(d, LongHost, k) {
      if OccursAt(d, LongHost, k) {
        OccursAtChar(d, LongHost, k, 0);
      }
    }
    ForeignHostRejected(raw);
  }
}

=== FILE: youtube_properties.dfy ===
/** What `normalize_youtube_url` promises, proved about the model: the accepted link shapes all
    collapse to one canonical URL, a short link takes priority, whitespace around the input is
    ignored, a host that is not YouTube is refused, and normalising twice changes nothing. */
module YouTubeUrlProperties {
  import opened Wrappers
  import opened PyStr
  import opened PyUrlParse
  import opened YouTubeUrls

  /** The optional scheme of both patterns, `(?:https?://)?`. */
  const Schemes: seq<string> := ["https://", "http://", ""]
  /** The optional host prefix of the short pattern, `(?:www\.)?`. */
  const ShortHosts: seq<string> := ["www.", ""]
  /** The optional host prefix of the long pattern, `(?:www\.|m\.)?`. */
  const LongHosts: seq<string> := ["www.", "m.", ""]

  /** No optional prefix contains 'y', the first letter of both markers. */
  lemma PrefixHasNoY(scheme: string, host: string)
    requires scheme in Schemes && (host in ShortHosts || host in LongHosts)
    ensures forall i :: 0 <= i < |scheme + host| ==> (scheme + host)[i] != 'y'
  {
  }

  lemma OccursAtChar(s: string, w: string, k: int, i: int)
    requires OccursAt(s, w, k) && 0 <= i < |w|
    ensures s[k + i] == w[i]
  {
    assert s[k..k + |w|][i] == s[k + i];
  }

  /** What a short link looks like character by character. */
  lemma ShortAtShape(s: string, k: int)
    ensures ShortAt(s, k) ==> s[k] == 'y' && s[k + 5] == '.'
    ensures ShortAt(s, k) ==> forall i :: 1 <= i < 6 ==> s[k + i] == ShortMarker[i]
  {
    if ShortAt(s, k) {
      forall i | 0 <= i < 9 ensures s[k + i] == ShortMarker[i] {
        OccursAtChar(s, ShortMarker, k, i);
      }
    }
  }

  // ----- short links -----

  /** In `p + "youtu.be/" + id + r`, with no 'y' in `p`, the short pattern captures `id`. */
  lemma ShortLinkCaptures(p: string, id: string, r: string)
    requires forall i :: 0 <= i < |p| ==> p[i] != 'y'
    requires IsVideoId(id)
    ensures ShortLinkId(p + ShortMarker + id + r) == Some(id)
  {
    var s := p + ShortMarker + id + r;
    var L := |p|;
    assert s[L..L + 9] == ShortMarker;
    assert s[L + 9..L + 20] == id;
    assert ShortAt(s, L);
    forall k | 0 <= k < L ensures !ShortAt(s, k) {
      ShortAtShape(s, k);
      assert s[k] == p[k];
    }
  }

  /** A short link, with or without scheme and "www.", normalises to its ID whatever follows it
      (a "?si=" share token, a "v=" parameter, anything). */
  lemma ShortLinkForm(scheme: string, host: string, id: string, rest: string)
    requires scheme in Schemes && host in ShortHosts && IsVideoId(id)
    ensures Normalize(Some(scheme + host + ShortMarker + id + rest)) == Success(Canonical(id))
  {
    var t := scheme + host + ShortMarker + id;
    assert t[|t| - 1] == id[10];
    assert t[0] == (if scheme != [] then scheme[0] else if host != [] then host[0] else 'y');
    StripKeepsHead(t, rest);
    PrefixHasNoY(scheme, host);
    assert t + TrimEnd(rest) == (scheme + host) + ShortMarker + id + TrimEnd(rest);
    ShortLinkCaptures(scheme + host, id, TrimEnd(rest));
    NormalizeOfCandidate(t + rest, id);
  }

  /** Short-link priority: the leftmost short link decides the result, before any long link or
      query parameter is looked at. */
  lemma ShortLinkPriority(raw: string, k: nat)
    requires raw != [] && ShortAt(Strip(raw), k)
    requires forall j :: 0 <= j < k ==> !ShortAt(Strip(raw), j)
    ensures Normalize(Some(raw)) == Success(Canonical(Strip(raw)[k + 9..k + 20]))
  {
    var url := Strip(raw);
    LeftmostShortCandidate(url, k);
    NormalizeOfCandidate(raw, url[k + 9..k + 20]);
  }

  /** The leftmost short link gives the candidate. */
  lemma LeftmostShortCandidate(url: string, k: nat)
    requires ShortAt(url, k) && forall j :: 0 <= j < k ==> !ShortAt(url, j)
    ensures CandidateId(url) == Some(url[k + 9..k + 20]) && IsVideoId(url[k + 9..k + 20])
  {
    assert FirstShortFrom(url, 0) == Some(k);
  }

  // ----- long links -----

  /** `s` is a prefix of `L` characters without 'y', then "youtube.com/watch?v=", an ID, and `r`. */
  ghost predicate LongLayout(s: string, L: nat, id: string, r: string) {
    |s| == L + 31 + |r|
    && (forall i :: 0 <= i < L ==> s[i] != 'y')
    && s[L..L + 18] == LongMarker && s[L + 18] == 'v' && s[L + 19] == '='
    && (forall i :: L < i < L + 20 ==> s[i] != 'y') && s[L + 5] == 'b'
    && (forall i :: L + 18 <= i < L + 31 ==> s[i] != '\n')
    && s[L + 20..L + 31] == id
    && (forall i :: L + 20 <= i < L + 31 ==> IsIdChar(s[i]))
    && s[L + 31..] == r
  }

  lemma LayoutOf(p: string, id: string, r: string)
    requires forall i :: 0 <= i < |p| ==> p[i] != 'y'
    requires IsVideoId(id)
    ensures LongLayout(p + LongMarker + "v=" + id + r, |p|, id, r)
  {
    var s := p + LongMarker + "v=" + id + r;
    var L := |p|;
    var m := LongMarker + "v=";
    assert s == p + m + id + r;
    forall i | L <= i < L + 20 ensures s[i] == m[i - L] { }
    forall i | L + 20 <= i < L + 31 ensures s[i] == id[i - L - 20] { }
  }

  /** The only "v=" + ID on the line after the marker is the one right after it. */
  lemma NoLaterV(s: string, L: nat, id: string, r: string, j: int)
    requires LongLayout(s, L, id, r)
    requires r == [] || r[0] == '&'
    requires !Contains(r, "v=")
    requires j > L + 18
    ensures !VAt(s, j)
  {
    if j + 13 <= |s| {
      var h := L + 31;
      if j + 1 < h {
        assert IsIdChar(s[j + 1]);
        assert s[j..j + 2][1] == s[j + 1];
      } else if j + 1 == h {
        assert s[j + 1] == s[h..][0] == r[0];
        assert s[j..j + 2][1] == s[j + 1];
      } else {
        assert s[j..j + 2] == s[h..][j - h..j - h + 2];
        assert !OccursAt(r, "v=", j - h);
      }
    }
  }

  /** The greedy `.*v=` after the marker stops at the "v=" right after it. */
  lemma GreedyVAfterMarker(s: string, L: nat, id: string, r: string)
    requires LongLayout(s, L, id, r)
    requires r == [] || r[0] == '&'
    requires !Contains(r, "v=")
    ensures GreedyV(s, L + 18) == Some(L + 18)
  {
    assert s[L + 18..L + 20] == "v=";
    assert VAt(s, L + 18);
    var e := LineEnd(s, L + 18);
    assert e >= L + 31;
    forall j | L + 18 < j ensures !VAt(s, j) {
      NoLaterV(s, L, id, r, j);
    }
  }

  /** The long pattern captures the ID right after the marker's "v=". */
  lemma LongLinkCaptures(s: string, L: nat, id: string, r: string)
    requires LongLayout(s, L, id, r)
    requires r == [] || r[0] == '&'
    requires !Contains(r, "v=")
    ensures LongLinkId(s) == Some(id)
  {
    GreedyVAfterMarker(s, L, id, r);
    assert LongAt(s, L);
    forall q | 0 <= q < L ensures !LongAt(s, q) {
      assert s[q] != 'y';
    }
    assert FirstLongFrom(s, 0) == Some(L);
  }

  /** No short link hides in a long link laid out as above. */
  lemma LongLinkHasNoShortLink(s: string, L: nat, id: string, r: string, k: int)
    requires LongLayout(s, L, id, r)
    requires r == [] || r[0] == '&'
    requires !Contains(r, ShortMarker)
    ensures !ShortAt(s, k)
  {
    ShortAtShape(s, k);
    if 0 <= k && k + 20 <= |s| {
      var h := L + 31;
      if k < h && k + 5 >= h {
        assert s[h] == s[h..][0] == r[0];
      } else if k >= h {
        assert s[k..k + 9] == s[h..][k - h..k - h + 9];
        assert !OccursAt(r, ShortMarker, k - h);
      }
    }
  }

  /** Both patterns agree on a long link laid out as above: no short link, and the long one
      captures the ID. */
  lemma LongLayoutCandidate(s: string, L: nat, id: string, r: string)
    requires LongLayout(s, L, id, r)
    requires r == [] || r[0] == '&'
    requires !Contains(r, "v=") && !Contains(r, ShortMarker)
    ensures CandidateId(s) == Some(id)
  {
    forall k ensures !ShortAt(s, k) {
      LongLinkHasNoShortLink(s, L, id, r, k);
    }
    assert FirstShortFrom(s, 0) == None;
    LongLinkCaptures(s, L, id, r);
  }

  /** A candidate that is a valid ID is returned in canonical form. */
  lemma NormalizeOfCandidate(raw: string, id: string)
    requires raw != [] && CandidateId(Strip(raw)) == Some(id) && IsVideoId(id)
    ensures Normalize(Some(raw)) == Success(Canonical(id))
  {
  }

  /** A long link, with or without scheme, with "www.", "m." or no host prefix, and with extra
      parameters such as "&t=123s&list=..." after the ID, normalises to its ID. The extra
      parameters must not hold another "v=" (the greedy `.*` would take the last one) nor a
      short link (which would take priority). */
  lemma LongLinkForm(scheme: string, host: string, id: string, rest: string)
    requires scheme in Schemes && host in LongHosts && IsVideoId(id)
    requires rest == [] || rest[0] == '&'
    requires !Contains(rest, "v=") && !Contains(rest, ShortMarker)
    ensures Normalize(Some(scheme + host + LongMarker + "v=" + id + rest)) == Success(Canonical(id))
  {
    PrefixHasNoY(scheme, host);
    PrefixStartsWithNoSpace(scheme, host);
    LongLinkAfter(scheme + host, id, rest);
  }

  lemma PrefixStartsWithNoSpace(scheme: string, host: string)
    requires scheme in Schemes && (host in ShortHosts || host in LongHosts)
    ensures scheme + host == [] || !IsSpace((scheme + host)[0])
  {
  }

  lemma LongLinkAfter(p: string, id: string, rest: string)
    requires forall i :: 0 <= i < |p| ==> p[i] != 'y'
    requires p == [] || !IsSpace(p[0])
    requires IsVideoId(id)
    requires rest == [] || rest[0] == '&'
    requires !Contains(rest, "v=") && !Contains(rest, ShortMarker)
    ensures Normalize(Some(p + LongMarker + "v=" + id + rest)) == Success(Canonical(id))
  {
    LongLinkStrippedCandidate(p, id, rest);
    NormalizeOfCandidate(p + LongMarker + "v=" + id + rest, id);
  }

  lemma LongLinkStrippedCandidate(p: string, id: string, rest: string)
    requires forall i :: 0 <= i < |p| ==> p[i] != 'y'
    requires p == [] || !IsSpace(p[0])
    requires IsVideoId(id)
    requires rest == [] || rest[0] == '&'
    requires !Contains(rest, "v=") && !Contains(rest, ShortMarker)
    ensures CandidateId(Strip(p + LongMarker + "v=" + id + rest)) == Some(id)
  {
    StripLongLink(p, id, rest);
    TrimmedTailKeepsConditions(rest);
    LongLinkCandidate(p, id, TrimEnd(rest));
  }

  lemma StripLongLink(p: string, id: string, rest: string)
    requires p == [] || !IsSpace(p[0])
    requires IsVideoId(id)
    ensures Strip(p + LongMarker + "v=" + id + rest) == p + LongMarker + "v=" + id + TrimEnd(rest)
  {
    var t := p + LongMarker + "v=" + id;
    assert t[0] == (if p != [] then p[0] else 'y');
    assert t[|t| - 1] == id[10];
    StripKeepsHead(t, rest);
  }

  /** Trimming the tail keeps the conditions the long-link shape places on it. */
  lemma TrimmedTailKeepsConditions(rest: string)
    requires rest == [] || rest[0] == '&'
    requires !Contains(rest, "v=") && !Contains(rest, ShortMarker)
    ensures TrimEnd(rest) == [] || TrimEnd(rest)[0] == '&'
    ensures !Contains(TrimEnd(rest), "v=") && !Contains(TrimEnd(rest), ShortMarker)
  {
    var r := TrimEnd(rest);
    NoneInPrefix(rest, |r|, "v=");
    NoneInPrefix(rest, |r|, ShortMarker);
  }

  lemma LongLinkCandidate(p: string, id: string, r: string)
    requires forall i :: 0 <= i < |p| ==> p[i] != 'y'
    requires IsVideoId(id)
    requires r == [] || r[0] == '&'
    requires !Contains(r, "v=") && !Contains(r, ShortMarker)
    ensures CandidateId(p + LongMarker + "v=" + id + r) == Some(id)
  {
    LayoutOf(p, id, r);
    LongLayoutCandidate(p + LongMarker + "v=" + id + r, |p|, id, r);
  }

  // ----- idempotence -----

  /** The canonical URL is a fixed point of normalisation. */
  lemma CanonicalIsFixedPoint(id: string)
    requires IsVideoId(id)
    ensures Normalize(Some(Canonical(id))) == Success(Canonical(id))
  {
    var p := "https://www.";
    assert !Contains([], "v=") && !Contains([], ShortMarker);
    LongLinkAfter(p, id, []);
    assert p + LongMarker + "v=" + id + [] == Canonical(id);
  }

  /** Normalising an already normalised URL returns it unchanged. */
  lemma NormalizeIdempotent(input: Option<string>)
    requires Normalize(input).Success?
    ensures Normalize(Some(Normalize(input).value)) == Normalize(input)
  {
    var url := Normalize(input).value;
    assert url == Canonical(url[32..]);
    CanonicalIsFixedPoint(url[32..]);
  }

  // ----- whitespace -----

  /** Whitespace around a non-empty input is stripped before any matching. */
  lemma NormalizeIgnoresSurroundingSpace(w1: string, s: string, w2: string)
    requires AllSpace(w1) && AllSpace(w2) && s != []
    ensures Normalize(Some(w1 + s + w2)) == Normalize(Some(s))
  {
    StripIgnoresSurroundingSpace(w1, s, w2);
  }

  // ----- foreign hosts -----

  lemma StripIsPiece(raw: string)
    ensures Contains(raw, Strip(raw))
  {
    var a := TrimStart(raw);
    var b := TrimEnd(a);
    var off := |raw| - |a|;
    assert raw[off..off + |b|] == a[..|b|];
    assert OccursAt(raw, b, off);
  }

  /** Removing tabs and line breaks keeps a piece a piece. */
  lemma DropUnsafeKeepsPiece(s: string, t: string)
    requires Contains(s, t)
    ensures Contains(DropUnsafe(s), DropUnsafe(t))
  {
    var k :| OccursAt(s, t, k);
    var a, c := s[..k], s[k + |t|..];
    assert s == a + t + c;
    DropUnsafeAppend(a + t, c);
    DropUnsafeAppend(a, t);
    assert OccursAt(DropUnsafe(s), DropUnsafe(t), |DropUnsafe(a)|);
  }

  /** An input in which neither "youtu.be/" nor (tabs and line breaks aside) "youtube.com"
      occurs is refused. */
  lemma ForeignHostRejected(raw: string)
    requires !Contains(raw, ShortMarker)
    requires !Contains(DropUnsafe(raw), LongHost)
    ensures Normalize(Some(raw)).Failure?
  {
    if raw != [] {
      var s := Strip(raw);
      StripIsPiece(raw);
      NoShortLinkInForeign(raw, s);
      NoLongLinkInForeign(raw, s);
      NoQueryIdInForeign(raw, s);
    }
  }

  lemma NoShortLinkInForeign(raw: string, s: string)
    requires Contains(raw, s) && !Contains(raw, ShortMarker)
    ensures ShortLinkId(s) == None
  {
    if ShortLinkId(s).Some? {
      var k := FirstShortFrom(s, 0).value;
      assert OccursAt(s, ShortMarker, k);
      ContainsTrans(raw, s, ShortMarker);
    }
  }

  lemma OccursPrefix(s: string, w: string, k: int, n: nat)
    requires OccursAt(s, w, k) && n <= |w|
    ensures OccursAt(s, w[..n], k)
  {
    assert s[k..k + n] == s[k..k + |w|][..n];
  }

  lemma NoLongLinkInForeign(raw: string, s: string)
    requires Contains(raw, s) && !Contains(DropUnsafe(raw), LongHost)
    ensures LongLinkId(s) == None
  {
    if LongLinkId(s).Some? {
      var q := FirstLongFrom(s, 0).value;
      assert LongMarker[..11] == LongHost;
      OccursPrefix(s, LongMarker, q, 11);
      ContainsTrans(raw, s, LongHost);
      DropUnsafeKeepsPiece(raw, LongHost);
      LongHostIsClean();
    }
  }

  lemma LongHostIsClean()
    ensures DropUnsafe(LongHost) == LongHost
  {
    assert forall i :: 0 <= i < |LongHost| ==> !IsUnsafe(LongHost[i]);
  }

  lemma NoQueryIdInForeign(raw: string, s: string)
    requires Contains(raw, s) && !Contains(DropUnsafe(raw), LongHost)
    ensures QueryParamId(s) == None
  {
    if QueryParamId(s).Some? {
      var parts := UrlSplit(s).value;
      assert Contains(parts.netloc, LongHost);
      ContainsTrans(DropUnsafe(s), parts.netloc, LongHost);
      DropUnsafeKeepsPiece(raw, s);
      ContainsTrans(DropUnsafe(raw), DropUnsafe(s), LongHost);
    }
  }
}

=== FILE: youtube_regex.dfy ===
/** The three patterns of `normalize_youtube_url` read as Python regular expressions, and the
    proof that the index searches and the ID check of `YouTubeUrls` agree with them.

    `re.search` tries start positions from the left and returns the first that admits a match;
    at that start, any way of matching the optional scheme and host prefix may be the one the
    engine takes, and the greedy `.*` of the long pattern gives characters back one at a time, so
    the last "v=" reachable without crossing a newline wins. */
module YouTubeRegex {
  import opened Wrappers
  import opened PyStr
  import opened YouTubeUrls

  /** Every text `(?:https?://)?(?:www\.)?` can match. */
  const ShortPrefixes: seq<string> := ["https://www.", "https://", "http://www.", "http://", "www.", ""]

  /** Every text `(?:https?://)?(?:www\.|m\.)?` can match. */
  const LongPrefixes: seq<string> :=
    ["https://www.", "https://m.", "https://", "http://www.", "http://m.", "http://", "www.", "m.", ""]

  lemma ShortPrefixesHaveNoY()
    ensures forall pre, i :: pre in ShortPrefixes && 0 <= i < |pre| ==> pre[i] != 'y'
  {
  }

  lemma LongPrefixesHaveNoY()
    ensures forall pre, i :: pre in LongPrefixes && 0 <= i < |pre| ==> pre[i] != 'y'
  {
  }

  // ----- the ID check `^[a-zA-Z0-9_-]{11}$` under `re.match` -----

  /** `$` without MULTILINE matches at the end of the text or just before a final line feed. */
  ghost predicate DollarAt(t: string, i: int) {
    i == |t| || (0 <= i == |t| - 1 && t[i] == '\n')
  }

  /** `re.match` anchors at 0, so `^` holds there; then eleven class characters and `$`. */
  ghost predicate IdFullMatch(t: string) {
    11 <= |t| && (forall i :: 0 <= i < 11 ==> IsIdChar(t[i])) && DollarAt(t, 11)
  }

  /** The ID check of `normalize_youtube_url` succeeds exactly when the anchored pattern matches. */
  lemma IdPatternAgrees(t: string)
    ensures MatchesIdPattern(t) <==> IdFullMatch(t)
  {
    if IdFullMatch(t) {
      assert IsVideoId(t[..11]) by {
        forall i | 0 <= i < 11 ensures IsIdChar(t[..11][i]) {
          assert t[..11][i] == t[i];
        }
      }
      if |t| == 11 {
        assert t[..11] == t;
      }
    }
  }

  // ----- the short pattern -----

  /** The short pattern matches from `p`, its optional part matching `pre`. */
  ghost predicate ShortMatch(s: string, p: int, pre: string) {
    pre in ShortPrefixes && OccursAt(s, pre, p) && ShortAt(s, p + |pre|)
  }

  /** The match `re.search` reports: no match starts further left. */
  ghost predicate ShortSearchMatch(s: string, p: int, pre: string) {
    ShortMatch(s, p, pre) && forall p', pre' :: 0 <= p' < p ==> !ShortMatch(s, p', pre')
  }

  /** A marker found at `k` inside the text of a match starting at `p` can only be the match's
      own marker, because no prefix contains 'y'. */
  lemma MarkerNotInsidePrefix(s: string, p: int, pre: string, k: int)
    requires pre in ShortPrefixes || pre in LongPrefixes
    requires OccursAt(s, pre, p) && p <= k < p + |pre|
    ensures s[k] != 'y'
  {
    ShortPrefixesHaveNoY();
    LongPrefixesHaveNoY();
    assert s[k] == s[p..p + |pre|][k - p];
  }

  /** The group `re.search` captures with the short pattern is the ID `ShortLinkId` returns. */
  lemma ShortSearchAgrees(s: string, p: int, pre: string)
    requires ShortSearchMatch(s, p, pre)
    ensures ShortLinkId(s) == Some(s[p + |pre| + 9..p + |pre| + 20])
  {
    var q := p + |pre|;
    assert ShortAt(s, q);
    var k := FirstShortFrom(s, 0).value;
    assert OccursAt(s, "", k) && ShortMatch(s, k, "");
    assert p <= k <= q;
    if k < q {
      assert s[k] == s[k..k + 9][0] == 'y';
      MarkerNotInsidePrefix(s, p, pre, k);
    }
    assert k == q;
  }

  /** The short pattern matches nowhere exactly when `ShortLinkId` finds nothing. */
  lemma ShortSearchFails(s: string)
    ensures ShortLinkId(s) == None <==> forall p, pre :: !ShortMatch(s, p, pre)
  {
    if ShortLinkId(s).Some? {
      var k := FirstShortFrom(s, 0).value;
      assert OccursAt(s, "", k) && ShortMatch(s, k, "");
    }
  }

  // ----- the long pattern -----

  /** The long pattern matches from `p`, its optional part matching `pre` and its `v=` standing
      at `j`: `.*` covers the text between the marker and `j`, which holds no newline. */
  ghost predicate LongMatch(s: string, p: int, pre: string, j: int) {
    pre in LongPrefixes && OccursAt(s, pre, p) && OccursAt(s, LongMarker, p + |pre|)
    && p + |pre| + 18 <= j && VAt(s, j)
    && forall i :: p + |pre| + 18 <= i < j ==> s[i] != '\n'
  }

  /** The match `re.search` reports: no match starts further left, and the greedy `.*` keeps
      as much as it can. */
  ghost predicate LongSearchMatch(s: string, p: int, pre: string, j: int) {
    LongMatch(s, p, pre, j)
    && (forall p', pre', j' :: 0 <= p' < p ==> !LongMatch(s, p', pre', j'))
    && (forall j' :: j < j' ==> !LongMatch(s, p, pre, j'))
  }

  /** A "v=" reached from the marker at `q` is at or before the one `GreedyV` picks. */
  lemma GreedyVIsLast(s: string, q: nat, j: int)
    requires q + 18 <= j && VAt(s, j)
    requires forall i :: q + 18 <= i < j ==> s[i] != '\n'
    ensures GreedyV(s, q + 18).Some? && j <= GreedyV(s, q + 18).value
  {
    var e := LineEnd(s, q + 18);
    assert s[j] == s[j..j + 2][0] == 'v';
    assert j < e;
  }

  /** The position `GreedyV` picks is itself reached without crossing a newline. */
  lemma GreedyVReached(s: string, q: nat)
    requires q + 18 <= |s| && GreedyV(s, q + 18).Some?
    ensures forall i :: q + 18 <= i < GreedyV(s, q + 18).value ==> s[i] != '\n'
  {
  }

  /** The conjuncts of `LongMatch`, gathered. */
  lemma LongMatchAt(s: string, p: int, pre: string, j: int)
    requires pre in LongPrefixes && OccursAt(s, pre, p) && OccursAt(s, LongMarker, p + |pre|)
    requires p + |pre| + 18 <= j && VAt(s, j)
    requires forall i :: p + |pre| + 18 <= i < j ==> s[i] != '\n'
    ensures LongMatch(s, p, pre, j)
  {
  }

  /** The leftmost long link is a match of the pattern with an empty optional part. */
  lemma FirstLongIsMatch(s: string)
    requires FirstLongFrom(s, 0).Some?
    ensures var q0 := FirstLongFrom(s, 0).value;
      LongMatch(s, q0, "", GreedyV(s, q0 + 18).value)
  {
    var q0 := FirstLongFrom(s, 0).value;
    var j0 := GreedyV(s, q0 + 18).value;
    GreedyVReached(s, q0);
    assert OccursAt(s, "", q0);
    LongMatchAt(s, q0, "", j0);
  }

  /** The leftmost long link `LongLinkId` uses starts where the marker of a `re.search` match
      does. */
  lemma LongSearchMarker(s: string, p: int, pre: string, j: int)
    requires LongSearchMatch(s, p, pre, j)
    ensures FirstLongFrom(s, 0) == Some(p + |pre|)
  {
    var q := p + |pre|;
    GreedyVIsLast(s, q, j);
    assert LongAt(s, q);
    var q0 := FirstLongFrom(s, 0).value;
    FirstLongIsMatch(s);
    assert p <= q0 <= q;
    if q0 < q {
      assert s[q0] == s[q0..q0 + 18][0] == 'y';
      MarkerNotInsidePrefix(s, p, pre, q0);
    }
    assert q0 == q;
  }

  /** The group `re.search` captures with the long pattern is the ID `LongLinkId` returns. */
  lemma LongSearchAgrees(s: string, p: int, pre: string, j: int)
    requires LongSearchMatch(s, p, pre, j)
    ensures LongLinkId(s) == Some(s[j + 2..j + 13])
  {
    var q := p + |pre|;
    LongSearchMarker(s, p, pre, j);
    GreedyVIsLast(s, q, j);
    var j0 := GreedyV(s, q + 18).value;
    GreedyVReached(s, q);
    LongMatchAt(s, p, pre, j0);
    assert j0 == j;
  }

  /** The long pattern matches nowhere exactly when `LongLinkId` finds nothing. */
  lemma LongSearchFails(s: string)
    ensures LongLinkId(s) == None <==> forall p, pre, j :: !LongMatch(s, p, pre, j)
  {
    if LongLinkId(s).Some? {
      FirstLongIsMatch(s);
    }
    forall p, pre, j | LongMatch(s, p, pre, j) ensures LongLinkId(s).Some? {
      GreedyVIsLast(s, p + |pre|, j);
      assert LongAt(s, p + |pre|);
    }
  }
}

=== FILE: youtube_urls.dfy ===
/** The YouTube URL helpers of app_quiz/api/utils.py: `normalize_youtube_url`, `extract_video_id`
    and `validate_youtube_url`. */
module YouTubeUrls {
  import opened Wrappers
  import opened PyStr
  import opened PyUrlParse

  /** `[a-zA-Z0-9_-]`, the alphabet of video IDs. */
  predicate IsIdChar(c: char) {
    IsAsciiLetter(c) || IsAsciiDigit(c) || c == '_' || c == '-'
  }

  /** Exactly eleven characters of the ID alphabet. */
  predicate IsVideoId(s: string) {
    |s| == 11 && forall i :: 0 <= i < 11 ==> IsIdChar(s[i])
  }

  /** "https://www.youtube.com/watch?v=" */
  const CanonicalPrefix: string := "https://www." + LongMarker + "v="

  /** The one form every successful normalisation returns. */
  function Canonical(id: string): string {
    CanonicalPrefix + id
  }

  // ----- strategy 1: `(?:https?://)?(?:www\.)?youtu\.be/([a-zA-Z0-9_-]{11})`, unanchored -----

  const ShortMarker: string := "youtu.be/"

  /** A short link starts at `k`: the marker followed by eleven ID characters. */
  predicate ShortAt(s: string, k: int) {
    OccursAt(s, ShortMarker, k) && k + 20 <= |s| && IsVideoId(s[k + 9..k + 20])
  }

  /** The leftmost short link at or after `from`. */
  function FirstShortFrom(s: string, from: nat): (r: Option<nat>)
    ensures r.Some? ==> from <= r.value && ShortAt(s, r.value)
    ensures r.Some? ==> forall k :: from <= k < r.value ==> !ShortAt(s, k)
    ensures r.None? ==> forall k :: from <= k ==> !ShortAt(s, k)
    decreases |s| - from
  {
    if from + 20 > |s| then None
    else if ShortAt(s, from) then Some(from)
    else FirstShortFrom(s, from + 1)
  }

  /** The ID captured by the short-link pattern, if it matches anywhere. */
  function ShortLinkId(s: string): (id: Option<string>)
    ensures id.Some? ==> IsVideoId(id.value)
  {
    match FirstShortFrom(s, 0)
    case None => None
    case Some(k) => Some(s[k + 9..k + 20])
  }

  // ----- strategy 2: `(?:https?://)?(?:www\.|m\.)?youtube\.com/watch\?.*v=([a-zA-Z0-9_-]{11})` -----

  const LongMarker: string := "youtube.com/watch?"

  /** "v=" followed by eleven ID characters starts at `j`. */
  predicate VAt(s: string, j: int) {
    OccursAt(s, "v=", j) && j + 13 <= |s| && IsVideoId(s[j + 2..j + 13])
  }

  /** Where the line holding index `from` ends: `.` does not match a newline. */
  function LineEnd(s: string, from: nat): (e: nat)
    requires from <= |s|
    ensures from <= e <= |s|
    ensures forall i :: from <= i < e ==> s[i] != '\n'
    ensures e < |s| ==> s[e] == '\n'
    decreases |s| - from
  {
    if from == |s| || s[from] == '\n' then from else LineEnd(s, from + 1)
  }

  /** The last `VAt` position in `[lo, hi)`. */
  function LastVIn(s: string, lo: nat, hi: nat): (r: Option<nat>)
    ensures r.Some? ==> lo <= r.value < hi && VAt(s, r.value)
    ensures r.Some? ==> forall j :: r.value < j < hi ==> !VAt(s, j)
    ensures r.None? ==> forall j :: lo <= j < hi ==> !VAt(s, j)
    decreases hi
  {
    if hi <= lo then None
    else if VAt(s, hi - 1) then Some(hi - 1)
    else LastVIn(s, lo, hi - 1)
  }

  /** Greedy `.*v=...` from `from`: the last "v=" + ID on the same line. */
  function GreedyV(s: string, from: nat): (r: Option<nat>)
    requires from <= |s|
    ensures r.Some? ==> from <= r.value < LineEnd(s, from) && VAt(s, r.value)
    ensures r.Some? ==> forall j :: r.value < j < LineEnd(s, from) ==> !VAt(s, j)
    ensures r.None? ==> forall j :: from <= j < LineEnd(s, from) ==> !VAt(s, j)
  {
    LastVIn(s, from, LineEnd(s, from))
  }

  /** A long link starts at `q`: the marker, then a "v=" + ID later on its line. */
  predicate LongAt(s: string, q: int) {
    OccursAt(s, LongMarker, q) && GreedyV(s, q + 18).Some?
  }

  /** The leftmost long link at or after `from`. */
  function FirstLongFrom(s: string, from: nat): (r: Option<nat>)
    ensures r.Some? ==> from <= r.value && LongAt(s, r.value)
    ensures r.Some? ==> forall q :: from <= q < r.value ==> !LongAt(s, q)
    ensures r.None? ==> forall q :: from <= q ==> !LongAt(s, q)
    decreases |s| - from
  {
    if from + 18 > |s| then None
    else if LongAt(s, from) then Some(from)
    else FirstLongFrom(s, from + 1)
  }

  /** The ID captured by the long-link pattern, if it matches anywhere. */
  function LongLinkId(s: string): (id: Option<string>)
    ensures id.Some? ==> IsVideoId(id.value)
  {
    match FirstLongFrom(s, 0)
    case None => None
    case Some(q) =>
      var j := GreedyV(s, q + 18).value;
      Some(s[j + 2..j + 13])
  }

  // ----- strategy 3: urlparse + parse_qs, any exception swallowed -----

  const LongHost: string := "youtube.com"

  /** The first `v` query value, kept when the netloc names YouTube and the value is eleven
      characters long (whatever those characters are). */
  function QueryParamId(s: string): (id: Option<string>)
    ensures id.Some? ==> |id.value| == 11
  {
    match UrlSplit(s)
    case Failure(_) => None
    case Success(parts) =>
      if Find(parts.netloc, LongHost).None? then None
      else
        var params := ParseQs(parts.query);
        if "v" in params && |params["v"][0]| == 11 then Some(params["v"][0]) else None
  }

  /** The fallback yields a value only through the guards of utils.py:57-60: the URL splits, its
      netloc contains "youtube.com", and the value is the first `v` value of its query. */
  lemma QueryIdNeedsYouTubeHost(s: string)
    ensures QueryParamId(s).Some? ==>
      var split := UrlSplit(s);
      split.Success? && Contains(split.value.netloc, LongHost) && "v" in ParseQs(split.value.query) &&
      QueryParamId(s).value == ParseQs(split.value.query)["v"][0]
  {
    if QueryParamId(s).Some? {
      var parts := UrlSplit(s).value;
      var params := ParseQs(parts.query);
      assert Contains(parts.netloc, LongHost);
      assert "v" in params;
      assert QueryParamId(s).value == params["v"][0];
    }
  }

  /** The fallback chain: the first strategy that yields an ID wins. */
  function CandidateId(s: string): (id: Option<string>)
    ensures id.Some? ==> |id.value| == 11
  {
    match ShortLinkId(s)
    case Some(id) => Some(id)
    case None =>
      match LongLinkId(s)
      case Some(id) => Some(id)
      case None => QueryParamId(s)
  }

  /** `re.match(r'^[a-zA-Z0-9_-]{11}$', t)`: `$` also matches just before a final newline. */
  predicate MatchesIdPattern(t: string): (b: bool)
    ensures IsVideoId(t) ==> b
    ensures b ==> |t| >= 11 && IsVideoId(t[..11])
  {
    IsVideoId(t) || (|t| == 12 && t[11] == '\n' && IsVideoId(t[..11]))
  }

  /** Every candidate has eleven characters, so the `$`-before-newline case never arises: the
      final check is exactly "eleven ID characters". */
  lemma IdPatternOnCandidates(t: string)
    requires |t| == 11
    ensures MatchesIdPattern(t) <==> IsVideoId(t)
  {
    assert t[..11] == t;
  }

  /** The three `ValueError`s `normalize_youtube_url` raises. */
  datatype NormalizeError =
    | NotNonEmptyString        // "URL must be a non-empty string"
    | NoVideoId(url: string)   // "Could not extract video ID from URL: {url}"
    | BadIdFormat(id: string)  // "Invalid YouTube video ID format: {video_id}"

  /** The text of each `ValueError`; the last two end with the interpolated URL or ID. */
  function Message(e: NormalizeError): (m: string)
    ensures e.NotNonEmptyString? ==> m == "URL must be a non-empty string"
    ensures e.NoVideoId? ==> |m| >= |e.url| && m[|m| - |e.url|..] == e.url
    ensures e.BadIdFormat? ==> |m| >= |e.id| && m[|m| - |e.id|..] == e.id
  {
    match e
    case NotNonEmptyString => "URL must be a non-empty string"
    case NoVideoId(url) => "Could not extract video ID from URL: " + url
    case BadIdFormat(id) => "Invalid YouTube video ID format: " + id
  }

  /** Different errors have different messages: the message names the error and the text it
      interpolates. */
  lemma MessageInjective(e1: NormalizeError, e2: NormalizeError)
    ensures Message(e1) == Message(e2) ==> e1 == e2
  {
    var m1, m2 := Message(e1), Message(e2);
    if m1 == m2 {
      assert m1[0] == m2[0];
      match e1
      case NotNonEmptyString =>
      case NoVideoId(u) =>
        assert m1 == "Could not extract video ID from URL: " + u;
        assert e2.NoVideoId? && m2 == "Could not extract video ID from URL: " + e2.url;
        assert u == m1[37..] == m2[37..] == e2.url;
      case BadIdFormat(i) =>
        assert m1 == "Invalid YouTube video ID format: " + i;
        assert e2.BadIdFormat? && m2 == "Invalid YouTube video ID format: " + e2.id;
        assert i == m1[33..] == m2[33..] == e2.id;
    }
  }

  /** `normalize_youtube_url`. `None` stands for any argument that is not a `str`. */
  function Normalize(input: Option<string>): (r: Result<string, NormalizeError>)
    ensures input == None || input == Some("") ==> r == Failure(NotNonEmptyString)
    ensures r.Success? ==> |r.value| == 43 && r.value[..32] == CanonicalPrefix && IsVideoId(r.value[32..])
  {
    match input
    case None => Failure(NotNonEmptyString)
    case Some(raw) =>
      if raw == [] then Failure(NotNonEmptyString)
      else
        var url := Strip(raw);
        match CandidateId(url)
        case None => Failure(NoVideoId(url))
        case Some(id) => if MatchesIdPattern(id) then Success(Canonical(id)) else Failure(BadIdFormat(id))
  }

  /** `extract_video_id`: the text after "v=" in the normalised URL. */
  function ExtractVideoId(input: Option<string>): (r: Result<string, NormalizeError>)
    ensures r.Success? <==> Normalize(input).Success?
    ensures r.Success? ==> IsVideoId(r.value) && Canonical(r.value) == Normalize(input).value
    ensures r.Failure? ==> r.error == Normalize(input).error
  {
    match Normalize(input)
    case Failure(e) => Failure(e)
    case Success(url) =>
      assert url == Canonical(url[32..]);
      SplitCanonical(url[32..]);
      Success(Split(url, "v=")[1])
  }

  /** `validate_youtube_url`: whether normalisation returns instead of raising. */
  function ValidateYouTubeUrl(input: Option<string>): (ok: bool)
    ensures ok <==> exists id :: IsVideoId(id) && Normalize(input) == Success(Canonical(id))
  {
    var r := Normalize(input);
    if r.Success? then
      assert r.value == Canonical(r.value[32..]);
      true
    else
      false
  }

  /** The canonical URL splits on "v=" into exactly two parts, the second being the ID, so
      `split('v=')[1]` never fails. */
  lemma SplitCanonical(id: string)
    requires IsVideoId(id)
    ensures Split(Canonical(id), "v=") == ["https://www." + LongMarker, id]
  {
    var s := Canonical(id);
    assert OccursAt(s, "v=", 30);
    forall k | 0 <= k < 30 ensures !OccursAt(s, "v=", k) {
      assert s[k] == CanonicalPrefix[k];
    }
    assert Find(s, "v=") == Some(30);
    assert s[32..] == id;
    forall k | 0 <= k && k + 2 <= |id| ensures !OccursAt(id, "v=", k) {
      assert id[k..k + 2][1] == id[k + 1] && IsIdChar(id[k + 1]);
    }
    assert Find(id, "v=") == None;
    assert Split(id, "v=") == [id];
    assert s[..30] == "https://www." + LongMarker;
    assert Split(s, "v=") == [s[..30]] + Split(s[32..], "v=");
  }
}
